=== FILE: README.md ===
# MisakiGuard request logic in Dafny

MisakiGuard is the authentication and authorization service of the Hanami
stack. This project models the decision logic of its request handlers and
of its users storage. It proves properties of that logic.

The modelled handlers are:

- access validation, in its current form and in the older token-validation form;
- token issuance, in both revisions;
- token renewal with a project selection;
- internal service tokens;
- user registration;
- adding a project to a user's memberships and removing one;
- the older users table and the SQLite-backed users database.

Everything the handlers delegate to a library is a parameter of the model
or an input value:

- the JWT library's sign and verify;
- SHA-256;
- uuid generation;
- the policy engine's `checkUserAgainstPolicy`;
- the JSON parser;
- the SQL table layer.

So every property holds for every behaviour of those collaborators, unless
a lemma states an assumption about them (for example, that SHA-256 is
injective).

Shared conventions:

- A reply is `Ok(output)`, `Fail(status, message)` or `Fault`.
- `Fault` stands for a handler that does not answer normally: an uncaught
  exception (`std::vector::at` out of range) or undefined behaviour (a
  dereferenced null pointer).
- A message the handler leaves unset is `""`.
- A JSON object is a `map<string, Json>`. Reading a missing string field
  gives `""` and a missing boolean gives `false`.

The comma- and dot-splitting helper of the string library is not part of
this model. `Strings.Split` cuts at every delimiter and maps `""` to the
empty list. Under that reading, joining and splitting are inverse on lists
whose elements hold no delimiter.

Files:

| file | module | content |
|---|---|---|
| common.dfy | Common | JSON values, claims, statuses, replies |
| strings.dfy | Strings | split, join and their round trips |
| fields.dfy | Fields | the input-field rules of the handlers |
| policy.dfy | Policy | the role loop against the policy and the HTTP-type cast |
| validate_access.dfy | Access | access validation |
| validate_token.dfy | TokenValidation | the older token validation |
| projects.dfy | Projects | membership lists: first-match search and removal |
| membership.dfy | Membership | add and remove project requests |
| renew_token.dfy | Renewal | token renewal |
| create_token.dfy | TokenIssue, LegacyTokenIssue | token issuance, both revisions |
| create_user.dfy | UserCreation | user registration |
| create_internal_token.dfy | InternalToken | internal service tokens |
| users_table.dfy | UsersTable | the older users table |
| users_database.dfy | UsersDatabase | the SQLite users database state machine |
| consistency.dfy | Consistency | how the v1 handlers would interact if combined |

Some handlers disagree with each other, and the model keeps both sides as
written rather than reconciling them:

- The v1 registration stores `SHA-256(password + uuid)`, but the v1 token
  request compares against `SHA-256(password)`. The two files are not one
  build. Registration calls the six-argument `getUserByName` of
  `MisakiRoot` (src/api/v1/user/create_user.cpp:119-124), while the token
  request calls the four-argument one of `MisakaRoot`
  (src/api/v1/auth/create_token.cpp:77), which belongs to the older users
  table. `Consistency.RegisteredUserCannotLogIn` shows what would happen if
  the two were combined over one users table: a user registered this way
  could not log in with its own password.
- The v1 add request stores a membership's role under `roles`, but renewal
  copies `role` into the token. `Consistency.RenewalAfterAddHasNoRole`
  proves the effect: after such an add, the renewed token's `role` claim is
  JSON null (under the assumption on copying a missing field listed under
  "Left out").
- The v1 registration stores `projects` as the submitted comma-separated
  names (src/api/v1/user/create_user.cpp:53-57, 144). The renewal, add and
  remove requests of the same build parse that column as a JSON list
  (src/api/v1/auth/renew_token.cpp:97-103,
  src/api/v1/user/add_project_to_user.cpp:131-138,
  src/api/v1/user/remove_project_from_user.cpp:115-122).
  `Consistency.RegisteredUserHasUnparsableProjects` proves the effect: a
  registered user gets a 500 from each of them.

## Model

| member | source | states |
|---|---|---|
| Common.BoolToString | src/users/users_database.cpp:101-103 | `std::to_string(bool)` gives "1" exactly for true, and always one character |
| Strings.Split | src/api/auth/validate_access.cpp:132-134 | the split is empty exactly for the empty string, and no piece contains the delimiter |
| Strings.SplitJoin | src/users/users_table.cpp:66-73 | splitting a joined list gives the list back, when no element holds the delimiter and the list is not `[""]` |
| Strings.JoinSplit | src/users/users_table.cpp:116-121 | joining the split of any string gives the string back |
| Strings.SplitCount | src/api/auth/create_internal_token.cpp:75-77 | a split has two or more pieces exactly when the delimiter occurs |
| Fields.AllMatch | src/api/auth/validate_access.cpp:51 | a character-class regex `[C]*` accepts exactly the strings whose every character is in C |
| Fields.LetterThen | src/api/v1/user/create_user.cpp:51 | `[a-zA-Z][C]*` accepts exactly a non-empty string with a letter first and class characters after |
| Fields.RemovedProjectIsOneListEntry | src/api/v1/user/remove_project_from_user.cpp:45-59 | a project id the remove request accepts (4..256 characters, a letter then word characters) holds no comma, so it names exactly one project. It also matches the registration's projects pattern, a format no membership handler reads back |
| Fields.NewUserCanRequestToken | src/api/v1/user/create_user.cpp:50-70 | every name and password accepted at registration is accepted by the v1 token request (src/api/v1/auth/create_token.cpp:45-53) |
| Policy.HttpType | src/api/auth/validate_access.cpp:128-129 | the conversion to `uint32_t` lies in 0..2^32-1, is congruent to the input modulo 2^32, and is the identity on that range |
| Policy.AnyRolePermits | src/api/auth/validate_access.cpp:137-143 | the loop's flag ends true exactly when some role is permitted (OR over roles, no early exit) |
| Policy.DecisionIgnoresOrder | src/api/auth/validate_access.cpp:137-143 | two role lists with the same members give the same decision, whatever their order or repetitions |
| Access.ValidateAccess | src/api/auth/validate_access.cpp:97-165 | invalid token: Unauthorized with the library's public error. Named component without `http_type`: 500. Success exactly for a valid token and either no component or a permitted role. A denial is Unauthorized "Access denied by policy". The output is the payload minus the seven hidden fields, other fields unchanged. Never a fault |
| Access.PolicyNotConsultedForInvalidToken | src/api/auth/validate_access.cpp:107-115 | with a rejected token the reply fails and is the same for any policy |
| Access.TokenOnlyCheck | src/api/auth/validate_access.cpp:117-119 | without a component every valid token succeeds, whatever the policy, endpoint or HTTP type |
| Access.RoleOrderIrrelevant | src/api/auth/validate_access.cpp:131-143 | tokens whose `user_roles` hold the same roles get the same decision |
| Access.OneOfTwoRolesSuffices | src/api/auth/validate_access.cpp:136-143 | a user with roles `a,b` is admitted when only `b` is permitted |
| Access.NamedComponentIsPolicyChecked | src/api/auth/validate_access.cpp:53-59 | a component that passes the field rules is non-empty, so success then implies a given `http_type` and a permitted role |
| TokenValidation.ValidateToken | src/api/auth/validate_token.cpp:47-91 | failed verification: Unauthorized "token invalid". Unparsable payload: 500 "token-payload broken". A payload without `groups`: undefined. Otherwise true exactly when some group is permitted |
| TokenValidation.PolicyAlwaysDecides | src/api/auth/validate_token.cpp:82-90 | for a good payload with a non-empty `groups`, a policy permitting every role allows and one permitting none denies |
| Projects.FindProject | src/api/v1/auth/renew_token.cpp:161-172 | the scan returns the index of the first entry with the id, and none exactly when no entry has it |
| Projects.RemoveFirst | src/api/v1/user/remove_project_from_user.cpp:124-134 | none exactly when the project is unassigned. Otherwise one entry shorter: entries before the first match stay, later ones move up by one |
| Projects.AppendKeepsUnique | src/api/v1/user/add_project_to_user.cpp:140-161 | appending an entry for an unassigned project keeps project ids unique |
| Projects.RemoveKeepsUnique | src/api/v1/user/remove_project_from_user.cpp:124-134 | removing an entry keeps project ids unique |
| Projects.RemoveUniqueLeavesNone | src/api/v1/user/remove_project_from_user.cpp:124-134 | with unique ids, removal leaves no entry for the project |
| Projects.RemoveAppended | src/api/v1/user/remove_project_from_user.cpp:124-134 | removing a freshly appended project restores the original list |
| Membership.NewEntry | src/api/v1/user/add_project_to_user.cpp:156-161 | the new entry holds exactly `project_id`, `roles` and `is_project_admin` with the request's values |
| Membership.Commit | src/api/v1/user/add_project_to_user.cpp:163-181 | the list is always written. The reply is the re-read user exactly when both the update and the re-read succeed, otherwise 500 |
| Membership.AppendProject | src/api/v1/user/add_project_to_user.cpp:131-171 | unparsable list: 500. Project already assigned: Conflict with its message. Otherwise writes the old list followed by exactly the new entry. Once a list is written, the reply is the re-read user exactly when the update and the re-read succeed, and otherwise a 500 |
| Membership.DropProject | src/api/v1/user/remove_project_from_user.cpp:115-159 | unparsable list: 500. Unassigned project: NotFound with its message. Otherwise writes the list without its first entry for the project. Once a list is written, the reply is the re-read user exactly when the update and the re-read succeed, and otherwise a 500 |
| Membership.AddProjectAsWritten | src/api/v1/user/add_project_to_user.cpp:104-184 | non-admin caller: Unauthorized. An existing user: Conflict "already exist". Only a failed lookup reaches the edit, which then parses "". An admin request for a missing user has exactly the outcome of `AppendProject` on the projects text "" |
| Membership.AddProject | src/api/v1/user/add_project_to_user.cpp:104-184 | corrected: non-admin: Unauthorized. Missing user: NotFound. An edit happens exactly for an existing user whose list parses and lacks the project, and appends one entry whose admin flag defaults to false (src/api/v1/user/add_project_to_user.cpp:67-72). Once a list is written, the reply is the re-read user exactly when the update and the re-read succeed, and otherwise a 500 |
| Membership.RemoveProjectAsWritten | src/api/v1/user/remove_project_from_user.cpp:90-172 | non-admin: Unauthorized. An existing user: Conflict. Only a failed lookup reaches the edit. An admin request for a missing user has exactly the outcome of `DropProject` on the projects text "" |
| Membership.RemoveProject | src/api/v1/user/remove_project_from_user.cpp:90-172 | corrected: non-admin: Unauthorized. Missing user: NotFound. An edit happens exactly for an existing user holding the project, and removes its first entry. Once a list is written, the reply is the re-read user exactly when the update and the re-read succeed, and otherwise a 500 |
| Membership.AsWrittenNeverEditsExistingUser | src/api/v1/user/add_project_to_user.cpp:122-129 | for an existing user with an unassigned project, the handler as written edits nothing while the corrected one edits. The remove handler as written answers Conflict |
| Membership.AddKeepsUnique | src/api/v1/user/add_project_to_user.cpp:140-161 | adding keeps the project ids of the stored list unique |
| Membership.AddThenRemoveRestores | src/api/v1/user/remove_project_from_user.cpp:124-134 | removing the project just added writes back the list as it was before the add |
| Renewal.Choosable | src/api/v1/auth/renew_token.cpp:105-114 | the stored projects, followed by the `admin` project exactly for a global admin |
| Renewal.Select | src/api/v1/auth/renew_token.cpp:165-168 | `projects` is dropped, `project_id`/`role`/`is_project_admin` are copied from the entry (null when absent), every other field is kept |
| Renewal.ChooseProject | src/api/v1/auth/renew_token.cpp:156-175 | found exactly when some entry has the id. The data then carries the first such entry's fields, otherwise it is unchanged |
| Renewal.RenewToken | src/api/v1/auth/renew_token.cpp:80-145 | failed lookup or parse: 500. Unchoosable project: Unauthorized with the not-assigned message. A choosable project succeeds exactly when signing succeeds, and a signer failure is 500. The token is the signature of `ChooseProject`'s user data for 3600 s. Success outputs exactly id, is_admin, name and token. Never a fault |
| Renewal.RenewedTokenCarriesSelection | src/api/v1/auth/renew_token.cpp:129-137 | the renewed token is signed for 3600 s over the user's data with the first choosable entry for the project selected into it (by `Renewal.Select`: no `projects`, the entry's id, role and admin flag, every other field kept) |
| Renewal.AdminMayAlwaysSelectAdmin | src/api/v1/auth/renew_token.cpp:105-117 | a global admin with a parsable list can always renew into `admin` |
| Renewal.NonAdminCannotSelectAdmin | src/api/v1/auth/renew_token.cpp:105-127 | a non-admin without a stored `admin` membership is refused `admin` |
| TokenIssue.CreateToken | src/api/v1/auth/create_token.cpp:64-100 | unknown user and wrong password both give Unauthorized with the same message. Success exactly when the stored hash equals the unsalted SHA-256 of the password, with `token` as the only output |
| TokenIssue.UniformFailure | src/api/v1/auth/create_token.cpp:75-92 | an unknown user and a wrong password get identical replies |
| TokenIssue.TokenHidesHash | src/api/v1/auth/create_token.cpp:94-98 | the token is signed for 3600 s over the user's fields minus `pw_hash`, others unchanged |
| LegacyTokenIssue.CreateToken | src/api/auth/create_token.cpp:43-82 | every failure is Unauthorized "user or password is incorrect". Success exactly when row 0 exists and its hash equals SHA-256 of the password. The token is signed over row 0 |
| LegacyTokenIssue.UniformFailure | src/api/auth/create_token.cpp:58-73 | an empty lookup, a failed lookup and a wrong password give the same reply |
| UserCreation.CreateUser | src/api/v1/user/create_user.cpp:106-180 | existing name: Conflict, nothing added. The added record has the listed keys, hash SHA-256(password+uuid), the request's fields, "-"/"-"/"private". Insert failure: 500 with its text. Output is the re-read user minus the ownership fields |
| UserCreation.OutputShowsSubmittedUser | src/api/v1/user/create_user.cpp:140-177 | when the hidden hash is left out on re-read, the output is exactly uuid, name, roles, projects and is_admin as submitted |
| UserCreation.SaltSeparatesUsers | src/api/v1/user/create_user.cpp:131-137 | two users with the same password but different uuids get different stored hashes, for an injective hash |
| InternalToken.Unsign | src/api/auth/create_internal_token.cpp:74-77 | defined exactly when the token contains a dot. The result splits into the first two segments followed by `_` |
| InternalToken.CreateInternalToken | src/api/auth/create_internal_token.cpp:53-83 | signer failure: 500. A fault exactly when the signed token has no dot. Otherwise the output is only `token`, equal to the signed token's first two segments followed by `._`, so it has three segments, the last being `_` |
| InternalToken.KeepsHeaderAndPayload | src/api/auth/create_internal_token.cpp:77 | `h.p.s` with dot-free parts becomes `h.p._`, header and payload kept character for character |
| InternalToken.UnsignIdempotent | src/api/auth/create_internal_token.cpp:74-77 | cutting the signature of an already cut token changes nothing |
| UsersTable.JoinGroups | src/users/users_table.cpp:66-73 | the loop's list is the comma-join of the groups, "" for no groups, and splits back into the groups |
| UsersTable.InsertValues | src/users/users_table.cpp:75-78 | four values in order: name, hash, "1" exactly for an admin, the joined groups |
| UsersTable.Decode | src/users/users_table.cpp:110-121 | id, name, hash and admin flag copied from the row. The groups are comma-free, not `[""]`, and re-join to the stored column, which by `Strings.SplitJoin` makes them exactly its split |
| UsersTable.GetUserByName | src/users/users_table.cpp:90-124 | succeeds exactly when a row matches and decodes row 0. Otherwise the result is untouched, and zero rows give the not-found message |
| UsersTable.GetUserRows | src/users/users_table.cpp:164-182 | succeeds exactly for a query with at least one row |
| UsersTable.GetUser | src/users/users_table.cpp:133-156 | fails whenever the row lookup fails, leaving the result untouched. Otherwise decodes row 0 |
| UsersTable.InsertThenGetByName | src/users/users_table.cpp:62-124 | a user inserted and read back by name comes back unchanged except for its id, which is the uuid the table assigned, when no group holds a comma |
| UsersTable.InsertThenGetById | src/users/users_table.cpp:133-182 | the same round trip for the lookup by that uuid |
| UsersDatabase.InitDatabase | src/users/users_database.cpp:43-61 | open database: false, nothing changes. Successful open: open, path recorded, result of the table creation. Otherwise unchanged |
| UsersDatabase.CloseDatabase | src/users/users_database.cpp:67-82 | closed: true. Fails exactly when open and the engine fails, leaving it open. Path and records kept |
| UsersDatabase.ToRecord | src/users/users_database.cpp:101-103 | the stored cells keep id and hash, and `is_admin` is "1" exactly for true |
| UsersDatabase.AddUser | src/users/users_database.cpp:90-111 | closed: false "database not open". Success exactly when open and the insert succeeds, appending one record. Otherwise nothing changes |
| UsersDatabase.Select | src/users/users_database.cpp:132-138 | the selected records carry the id and are stored ones, and are non-empty exactly when some record has the id |
| UsersDatabase.GetUser | src/users/users_database.cpp:120-149 | closed: "database not open". No row: "User with ID '<id>' not found;". Success exactly for an open database, a successful select and a match, giving the id, the hash from cell 1 and `is_admin` as cell 2 == "1" of the first selected row. Data untouched on failure |
| UsersDatabase.AddThenGet | src/users/users_database.cpp:101-146 | a user added under a fresh id reads back with the same id, hash and admin flag |
| UsersDatabase.ClosedStaysUnchanged | src/users/users_database.cpp:90-130 | without an init, any sequence of calls leaves a closed database closed and unchanged |
| UsersDatabase.OpenKeepsPath | src/users/users_database.cpp:52-57 | without a close, an open database stays open with the path recorded by its init |
| Consistency.RegisteredUserCannotLogIn | src/api/v1/user/create_user.cpp:131-137 | if the v1 registration and the v1 token request (unsalted compare, src/api/v1/auth/create_token.cpp:71-73) shared one users table, a registered user's password would fail the token request, for an injective hash |
| Consistency.RenewalAfterAddHasNoRole | src/api/v1/user/add_project_to_user.cpp:156-161 | after the v1 add, renewal into that project succeeds, and the token is the signature of the user data with the new entry selected: its `project_id` and `is_project_admin` are the added ones, but its `role` claim is null, since renewal reads `role` (src/api/v1/auth/renew_token.cpp:167) |
| Consistency.RegisteredUserHasUnparsableProjects | src/api/v1/user/create_user.cpp:53-57 | for a user stored by the v1 registration, whose projects text is a comma-separated name list, renewal (src/api/v1/auth/renew_token.cpp:97-103) and the admin add and remove requests (src/api/v1/user/add_project_to_user.cpp:131-138, src/api/v1/user/remove_project_from_user.cpp:115-122) all answer 500, for a parser that yields a list only from text opening with `[` |

## Left out

Collaborators, replaced by parameters or inputs:

- JWT creation and verification are the parameters `sign`, `verify` and
  `validate`. Header and claims encoding, the HMAC signature and the
  `exp`/`iat`/`nbf` clock checks happen inside the JWT library, so token
  expiry is not modelled.
- SHA-256 is the parameter `sha`.
- Uuid generation is the input `uuid`. Freshness is stated where a lemma
  needs it.
- `checkUserAgainstPolicy` is the parameter `check`. Policy-file parsing
  is not modelled.
- JSON parsing is the parameter `parse`. Serialisation (`toString`) is not
  modelled: the written membership list is the list itself, not its text.
- The SQL table layer is not modelled. Its query results, insert and
  update outcomes and error texts are inputs. The hidden-column projection
  it performs is stated as an assumption in the lemmas that need it.
- Messages added to the error container and log output are not modelled.
  Only the status code and status message sent to the client are.

Requests and files:

- Field rules of the add and renew requests: they use the `ID_REGEX` and
  `ID_EXT_REGEX` constants of a header that is not part of this model. The
  rules of access validation, the v1 token request, v1 registration and the
  v1 remove request (literal borders and regexes) are modelled in `Fields`.
- The v1 registration calls a six-argument `getUserByName` of `MisakiRoot`,
  whose users table is not part of this model. The table shown
  (src/database/users_table.cpp:91-95) has the four-argument form that the v1
  token request calls. The registration's lookup result is therefore an input.
- The users table constructor (src/users/users_table.cpp:49-51) declares
  the `groups` column by renaming and pushing the `is_admin` header entry
  a second time. The column is thus typed boolean. What that does depends
  on the SQL layer, so `UsersTable.Row` keeps `groups` as text.
- REST documentation generation, admin-gated CRUD handlers that only
  delegate, and process bootstrap and configuration are not modelled.

Behaviour the model simplifies:

- Renewal.Select: copying a field the entry lacks
  (src/api/v1/auth/renew_token.cpp:166-168) is taken to store JSON null,
  modelled by `Common.FieldOr`. The JSON library is not part of this model;
  if inserting an empty item failed or dereferenced null instead,
  `Consistency.RenewalAfterAddHasNoRole` would not describe the source.
- Membership.AddProject: `userId` is the request's `id` field. Both the add
  and the remove request register their user input as `user_id`
  (src/api/v1/user/add_project_to_user.cpp:46,
  src/api/v1/user/remove_project_from_user.cpp:45) but read `id`
  (src/api/v1/user/add_project_to_user.cpp:116,
  src/api/v1/user/remove_project_from_user.cpp:102). So a caller sending only
  `user_id` is modelled by `userId == ""`. The add request also attaches its
  border and regex to the undeclared `id`
  (src/api/v1/user/add_project_to_user.cpp:50-51).
- Access.ValidateAccess: the roles are read from the `user_roles` claim
  (src/api/auth/validate_access.cpp:133). No token issuer in this model
  writes that claim: the v1 issuer signs the user's `roles`, the older one
  the row's `groups`. For their tokens the model reads `""` and finds no
  roles, so every policy check with a named component is denied.
- Consistency.RegisteredUserHasUnparsableProjects: the parser is taken to
  yield a list only from text opening with `[`. The texts `true`, `false`
  and `null` pass the registration's projects pattern and are JSON values,
  but not lists. The model's `parse` yields only lists, and how the
  handlers treat such a value is not modelled.
- Fields.AllMatch: a registered regular expression is taken to match the
  whole field, as if anchored. The request framework's regex matching is not
  part of this model. If it accepted a match anywhere inside the field,
  `[a-zA-Z][a-zA-Z_0-9]*` would accept any field containing a letter, and
  the `Fields` predicates would be stricter than the source.
- Fields.InBorder: a string border counts characters (`|s|`), while the
  request framework's border on a `std::string` counts bytes. A password of
  five 2-byte UTF-8 characters is 10 bytes long. The two agree only on
  ASCII input.
- Fields.AccessRequestAccepted: every field rule is registered inside
  `assert(...)` (for example src/api/auth/validate_access.cpp:51 and 58-59,
  src/api/v1/user/create_user.cpp:50-51 and 69-70). A build with `NDEBUG`
  registers none of them. The `Fields` predicates, and the lemmas built on
  them, describe a build with assertions enabled.

- The mutex of the users database is left out. Each operation is one
  atomic step of `UsersDatabase`.
- LegacyTokenIssue.CreateToken: the row's serialisation is the
  parameter `rowText`. The older signer takes no TTL.
- TokenValidation.ValidateToken: a payload that parses but is not a JSON
  object is folded into the parse failure. In the source it reaches a null
  map and is undefined.
- UserCreation.CreateUser: `is_admin` is a boolean input that the
  request framework defaults to false. The default is not modelled.
- Strings.Split: the string library's split helper is not part of this
  model. The split modelled cuts at every delimiter and gives no elements
  for the empty string.

## Findings

| source | as written | input that shows it | evidently intended | confidence | as-written member | corrected member |
|---|---|---|---|---|---|---|
| src/api/v1/user/add_project_to_user.cpp:122-129 | answers Conflict "User with id '<id>' already exist." when the target user IS found, and goes on to the edit only when the lookup fails, parsing the projects of an empty result | an admin request to add an unassigned project to an existing user | answer NotFound for a missing user and append the entry to an existing user's list | not executed | Membership.AddProjectAsWritten | Membership.AddProject |
| src/api/v1/user/remove_project_from_user.cpp:106-113 | the same inverted existence check: an existing user is answered with Conflict and its membership is never removed | an admin request to remove a project an existing user holds | answer NotFound for a missing user and remove the entry from an existing user's list | not executed | Membership.RemoveProjectAsWritten | Membership.RemoveProject |

`Membership.AsWrittenNeverEditsExistingUser` exhibits both rows. For an
existing user whose list lacks the project, the add handler as written
writes nothing while the corrected one writes. The remove handler as
written answers Conflict. `Membership.AddKeepsUnique` and
`Membership.AddThenRemoveRestores` are the intended properties, proved of
the corrected members.

The corrected members answer NotFound with "User with id '<id>' not
found.". The source does not fix that message; it is the model's choice.

=== FILE: common.dfy ===
/**
  Shared vocabulary of the Guard service model: JSON values and claim maps,
  the status codes a request can end with, and the reply of a request.
 */
module Common {

  /** The conventional Some/None wrapper. */
  datatype Option<+T> = None | Some(value: T) {
    function GetOr(default: T): T {
      match this
      case Some(v) => v
      case None => default
    }
  }

  /** A scalar JSON value, as held in token payloads and user rows. */
  datatype Json = JStr(s: string) | JBool(b: bool) | JInt(i: int) | JNull

  /** A JSON object: token claims, a user row, a membership entry, a request context. */
  type Claims = map<string, Json>

  /** Validity requested for every token the handlers sign, in seconds. */
  const TokenTtl: nat := 3600

  /** The response types the request handlers set on failure. */
  datatype Status = Unauthorized | NotFound | Conflict | InternalServerError

  /**
    The result of one request handler: the output object on success, or the
    status code and the error message shown to the client on failure (the
    message is "" where the handler leaves it unset). `Fault` stands for
    undefined behaviour or an uncaught exception in the handler, such as a
    `std::vector::at` out of range or a dereferenced null pointer.
   */
  datatype Reply = Ok(output: Claims) | Fail(status: Status, message: string) | Fault

  /** `obj.get(key).getString()`: the string under `key`, "" when absent or not a string. */
  function GetString(obj: Claims, key: string): string {
    if key in obj && obj[key].JStr? then obj[key].s else ""
  }

  /** `obj.get(key).getBool()` / `getBoolByKey(key)`: false when absent or not a bool. */
  function GetBool(obj: Claims, key: string): bool {
    key in obj && obj[key].JBool? && obj[key].b
  }

  /** `obj.get(key)` copied into another object: JSON null when absent. */
  function FieldOr(obj: Claims, key: string): Json {
    if key in obj then obj[key] else JNull
  }

  /** `std::to_string(bool)`: a C++ bool converts to the integer 1 or 0. */
  function BoolToString(b: bool): (s: string)
    ensures s == "1" <==> b
    ensures |s| == 1
  {
    if b then "1" else "0"
  }
}

=== FILE: consistency.dfy ===
/**
  What the v1 requests mean for each other. The v1 user registration salts
  the stored hash with the new uuid while the v1 token request compares
  against the unsalted hash; the two are written against different users
  tables (`MisakiRoot` and `MisakaRoot`), so `RegisteredUserCannotLogIn`
  describes what would happen if they were combined over one table. The v1
  add request stores a membership's role under `roles` while the renewal,
  a handler of the same build, copies `role` into the token. And the v1
  registration stores `projects` as the submitted comma-separated text, while
  the renewal and the add and remove requests of the same build parse that
  column as a JSON list. All three mismatches are stated here as they are,
  not reconciled.
 */
module Consistency {
  import opened Common
  import opened Projects
  import UserCreation
  import TokenIssue
  import Membership
  import Renewal
  import Fields

  /**
    Were the v1 registration and the v1 token request to share one users
    table, a user registered through the former could not obtain a token with
    its own password from the latter, as long as SHA-256 tells the
    salted and the unsalted password apart (the uuid is never empty).
   */
  lemma RegisteredUserCannotLogIn(name: string, projects: string, roles: string, password: string,
                                  isAdmin: bool, uuid: string, sha: string -> string,
                                  reread: Option<Claims>, sign: (Claims, nat) -> Option<string>)
    requires forall a, b :: sha(a) == sha(b) ==> a == b
    requires uuid != ""
    ensures var created := UserCreation.CreateUser(name, projects, roles, password, isAdmin,
                                                   None, uuid, sha, true, "", reread);
            TokenIssue.CreateToken(password, created.added, sha, sign)
              == Fail(Unauthorized, TokenIssue.Denied)
  {
    assert |password + uuid| != |password|;
  }

  /**
    A membership added by the v1 add request can be selected by renewal: the
    renewed token is signed over the user's data with that entry selected,
    which carries the project and its admin flag, but whose `role` claim is
    JSON null: the entry holds the role under `roles`.
   */
  lemma RenewalAfterAddHasNoRole(context: Claims, userId: string, projectId: string, roles: string,
                                 isProjectAdmin: Option<bool>, before: Claims, after: Claims,
                                 parse: string -> Option<seq<Entry>>,
                                 updateOk: bool, reread: Option<Claims>,
                                 sign: (Claims, nat) -> Option<string>)
    requires Membership.AddProject(context, userId, projectId, roles, isProjectAdmin, Some(before),
                                   parse, updateOk, reread).written.Some?
    requires parse(GetString(after, "projects"))
          == Membership.AddProject(context, userId, projectId, roles, isProjectAdmin, Some(before),
                                   parse, updateOk, reread).written
    requires forall c :: sign(c, TokenTtl).Some?
    ensures var r := Renewal.RenewToken(userId, projectId, Some(after), parse, sign);
            var claims := Renewal.Select(after, Membership.NewEntry(projectId, roles, isProjectAdmin.GetOr(false)));
            && r.Ok?
            && sign(claims, TokenTtl) == Some(GetString(r.output, "token"))
            && GetString(claims, "project_id") == projectId
            && FieldOr(claims, "role") == JNull
            && GetBool(claims, "is_project_admin") == isProjectAdmin.GetOr(false)
  {
    var stored := parse(GetString(before, "projects")).value;
    var e := Membership.NewEntry(projectId, roles, isProjectAdmin.GetOr(false));
    var list := Renewal.Choosable(stored + [e], GetBool(after, "is_admin"));
    assert list[|stored|] == e;
    var i := FindProject(list, projectId).value;
    assert i == |stored|;
    var claims := Renewal.Select(after, list[i]);
    assert GetString(Renewal.RenewToken(userId, projectId, Some(after), parse, sign).output, "token")
        == sign(claims, TokenTtl).value;
  }

  /**
    A user registered through the v1 request cannot renew a token, nor have a
    project added or removed: registration stores `projects` as the submitted
    comma-separated names, and every one of these handlers first parses the
    stored column as a JSON list. The lookup hands back the record that
    registration stored, and the parser is taken to yield a list only from a
    text that opens with `[`, which no accepted projects text does.
   */
  lemma RegisteredUserHasUnparsableProjects(name: string, projects: string, roles: string, password: string,
                                            isAdmin: bool, uuid: string, sha: string -> string,
                                            context: Claims, userId: string, projectId: string,
                                            projectRoles: string, isProjectAdmin: Option<bool>,
                                            parse: string -> Option<seq<Entry>>,
                                            updateOk: bool, reread: Option<Claims>,
                                            sign: (Claims, nat) -> Option<string>)
    requires forall t :: parse(t).Some? ==> |t| > 0 && t[0] == '['
    requires Fields.IsNameList(projects)
    requires GetBool(context, "is_admin")
    ensures var stored := UserCreation.CreateUser(name, projects, roles, password, isAdmin,
                                                  None, uuid, sha, true, "", None).added;
            && Renewal.RenewToken(userId, projectId, stored, parse, sign) == Fail(InternalServerError, "")
            && Membership.AddProject(context, userId, projectId, projectRoles, isProjectAdmin, stored,
                                     parse, updateOk, reread).reply == Fail(InternalServerError, "")
            && Membership.RemoveProject(context, userId, projectId, stored,
                                        parse, updateOk, reread).reply == Fail(InternalServerError, "")
  {
    assert Fields.IsLetter(projects[0]);
  }
}

=== FILE: create_internal_token.dfy ===
/**
  Tokens for internal services (src/api/auth/create_internal_token.cpp): a
  token is signed over the service name and its signature segment is then
  replaced by `_`, so that the token cannot pass verification outside the node.

  The JWT library's signer is the parameter `sign(claims, ttl)`.
 */
module InternalToken {
  import opened Common
  import Strings

  /** The claims an internal token is signed over. */
  function ServiceClaims(serviceName: string): Claims {
    map["name" := JStr(serviceName)]
  }

  /**
    The cut-off signature: the first two `.`-segments of `jwt` and `_` as a
    third. None when the split has fewer than two segments, where `.at(1)`
    would fail.
   */
  function Unsign(jwt: string): (r: Option<string>)
    ensures r.Some? <==> |Strings.Split(jwt, '.')| >= 2
    ensures r.None? <==> '.' !in jwt
    // header and payload are kept and the signature is `_`
    ensures r.Some? ==> Strings.Split(r.value, '.') == Strings.Split(jwt, '.')[..2] + ["_"]
  {
    Strings.SplitCount(jwt, '.');
    var segs := Strings.Split(jwt, '.');
    if |segs| < 2 then None
    else
      var t := segs[0] + "." + segs[1] + "._";
      Join3(segs[0], segs[1], "_");
      assert t == segs[0] + "." + segs[1] + "." + "_";
      Strings.SplitJoin([segs[0], segs[1], "_"], '.');
      assert segs[..2] + ["_"] == [segs[0], segs[1], "_"];
      Some(t)
  }

  /** Three elements joined with `.` */
  lemma Join3(a: string, b: string, c: string)
    ensures Strings.Join([a, b, c], '.') == a + "." + b + "." + c
  {
    assert [a, b, c][1..] == [b, c];
    assert [b, c][1..] == [c];
    assert Strings.Join([b, c], '.') == b + "." + c;
  }

  /** CreateInternalToken::runTask */
  function CreateInternalToken(serviceName: string, sign: (Claims, nat) -> Option<string>): (r: Reply)
    ensures sign(ServiceClaims(serviceName), TokenTtl).None? ==> r == Fail(InternalServerError, "")
    // an undefined `.at(1)` exactly when the signed token has no `.`
    ensures r.Fault? <==> sign(ServiceClaims(serviceName), TokenTtl).Some? &&
                          '.' !in sign(ServiceClaims(serviceName), TokenTtl).value
    // a signed token with a dot yields its first two segments with `_` as the signature
    ensures sign(ServiceClaims(serviceName), TokenTtl).Some? && '.' in sign(ServiceClaims(serviceName), TokenTtl).value
            ==> r == Ok(map["token" := JStr(Unsign(sign(ServiceClaims(serviceName), TokenTtl).value).value)])
    ensures r.Ok? ==> r.output.Keys == {"token"}
    ensures r.Ok? ==> var segs := Strings.Split(GetString(r.output, "token"), '.');
                      |segs| == 3 && segs[2] == "_"
  {
    match sign(ServiceClaims(serviceName), TokenTtl)
    case None => Fail(InternalServerError, "")
    case Some(jwt) =>
      match Unsign(jwt)
      case None => Fault
      case Some(token) => Ok(map["token" := JStr(token)])
  }

  /**
    A well-formed token `header.payload.signature` becomes
    `header.payload._`: header and payload are kept character for character.
   */
  lemma KeepsHeaderAndPayload(header: string, payload: string, signature: string)
    requires '.' !in header && '.' !in payload && '.' !in signature
    ensures Unsign(header + "." + payload + "." + signature) == Some(header + "." + payload + "._")
  {
    var xs := [header, payload, signature];
    Join3(header, payload, signature);
    Strings.SplitJoin(xs, '.');
  }

  /** Cutting the signature twice changes nothing more. */
  lemma UnsignIdempotent(jwt: string)
    requires Unsign(jwt).Some?
    ensures Unsign(Unsign(jwt).value) == Unsign(jwt)
  {
    var segs := Strings.Split(jwt, '.');
    KeepsHeaderAndPayload(segs[0], segs[1], "_");
  }
}

=== FILE: create_token.dfy ===
/**
  Token issuance from a name and password, in its two revisions
  (src/api/v1/auth/create_token.cpp and src/api/auth/create_token.cpp).
  Both hash the submitted password with unsalted SHA-256 and compare it with
  the stored hash; an unknown user and a wrong password get the same answer.

  SHA-256 is the parameter `sha`, the JWT library's signer is `sign`, and the
  user lookup by name is an input (None when it fails).
 */
module TokenIssue {
  import opened Common

  const Denied: string := "ACCESS DENIED!\nUser or password is incorrect."

  /**
    CreateToken::runTask (v1). The signer's result is not checked: when it
    fails the token stays the empty string and the request still succeeds.
    The submitted name only selects `lookup`, so it is not a parameter.
   */
  function CreateToken(pw: string, lookup: Option<Claims>,
                       sha: string -> string, sign: (Claims, nat) -> Option<string>): (r: Reply)
    ensures lookup.None? ==> r == Fail(Unauthorized, Denied)
    ensures lookup.Some? && GetString(lookup.value, "pw_hash") != sha(pw) ==> r == Fail(Unauthorized, Denied)
    // success exactly when the stored hash is the unsalted hash of the password
    ensures r.Ok? <==> lookup.Some? && GetString(lookup.value, "pw_hash") == sha(pw)
    ensures r.Ok? ==> r.output.Keys == {"token"} && r.output["token"].JStr?
    ensures r != Fault
  {
    match lookup
    case None => Fail(Unauthorized, Denied)
    case Some(userData) =>
      if GetString(userData, "pw_hash") != sha(pw) then Fail(Unauthorized, Denied)
      else Ok(map["token" := JStr(sign(userData - {"pw_hash"}, TokenTtl).GetOr(""))])
  }

  /** An unknown user and a wrong password cannot be told apart: same status, same message. */
  lemma UniformFailure(pw: string, user: Claims,
                       sha: string -> string, sign: (Claims, nat) -> Option<string>)
    requires GetString(user, "pw_hash") != sha(pw)
    ensures CreateToken(pw, None, sha, sign) == CreateToken(pw, Some(user), sha, sign)
  {
  }

  /**
    On success the token is signed for one hour over the user's data with
    `pw_hash` removed and every other field unchanged.
   */
  lemma TokenHidesHash(pw: string, lookup: Option<Claims>,
                       sha: string -> string, sign: (Claims, nat) -> Option<string>)
    requires CreateToken(pw, lookup, sha, sign).Ok?
    ensures exists payload: Claims ::
              && payload.Keys == lookup.value.Keys - {"pw_hash"}
              && (forall k :: k in payload ==> payload[k] == lookup.value[k])
              && GetString(CreateToken(pw, lookup, sha, sign).output, "token")
                 == sign(payload, TokenTtl).GetOr("")
  {
    var payload := lookup.value - {"pw_hash"};
    assert GetString(CreateToken(pw, lookup, sha, sign).output, "token") == sign(payload, TokenTtl).GetOr("");
  }
}

/**
  The older revision of token issuance: the user row comes from the users
  table of the same revision, and the token is signed over the text of the
  first row of the lookup (`rowText` stands for the row's serialisation).
 */
module LegacyTokenIssue {
  import opened Common
  import UsersTable

  const Denied: string := "user or password is incorrect"

  /** CreateToken::runTask (older revision); the signer's result is not checked either. */
  function CreateToken(userName: string, pw: string, query: Option<seq<UsersTable.Row>>,
                       sha: string -> string, rowText: UsersTable.Row -> string,
                       sign: string -> Option<string>): (r: Reply)
    ensures query.None? || (query.Some? && |query.value| == 0) ==> r == Fail(Unauthorized, Denied)
    // success exactly when a row is found and its stored hash is the unsalted hash of the password
    ensures r.Ok? <==> query.Some? && |query.value| > 0 && query.value[0].pwHash == sha(pw)
    ensures !r.Ok? ==> r == Fail(Unauthorized, Denied)
    // the token is built from row 0 of the lookup
    ensures r.Ok? ==> r.output == map["token" := JStr(sign(rowText(query.value[0])).GetOr(""))]
  {
    var fetch := UsersTable.GetUserByName(UsersTable.EmptyUser, query, userName);
    if !fetch.ok then Fail(Unauthorized, Denied)
    else if fetch.result.pwHash != sha(pw) then Fail(Unauthorized, Denied)
    else Ok(map["token" := JStr(sign(rowText(query.value[0])).GetOr(""))])
  }

  /** Unknown user and wrong password give the same reply. */
  lemma UniformFailure(userName: string, pw: string, row: UsersTable.Row,
                       sha: string -> string, rowText: UsersTable.Row -> string, sign: string -> Option<string>)
    requires row.pwHash != sha(pw)
    ensures CreateToken(userName, pw, Some([]), sha, rowText, sign)
         == CreateToken(userName, pw, Some([row]), sha, rowText, sign)
         == CreateToken(userName, pw, None, sha, rowText, sign)
  {
  }
}

=== FILE: create_user.dfy ===
/**
  Registration of a new user (src/api/v1/user/create_user.cpp). A name already
  in the users table is refused; otherwise a record is built whose password
  hash is salted with the user's freshly generated uuid, the record is added,
  and the stored user is read back without its ownership fields.

  The table's answers are inputs: `existing` is the result of the lookup by
  name (None when it fails), `addOk`/`addError` the result of the insert and
  `reread` the row read back after it. The generated uuid is the input `uuid`
  and SHA-256 is the parameter `sha`.
 */
module UserCreation {
  import opened Common

  /** The reply, and the record handed to the table when the insert succeeds. */
  datatype Creation = Creation(reply: Reply, added: Option<Claims>)

  /** Fields of the table's ownership bookkeeping, removed from the output. */
  const Ownership: set<string> := {"owner_uuid", "project_uuid", "visibility"}

  function AlreadyExists(name: string): string {
    "User with name '" + name + "' already exist."
  }

  /** The record inserted for a new user. */
  function NewRecord(uuid: string, name: string, roles: string, projects: string,
                     pwHash: string, isAdmin: bool): Claims
  {
    map["uuid" := JStr(uuid), "name" := JStr(name), "roles" := JStr(roles),
        "projects" := JStr(projects), "pw_hash" := JStr(pwHash), "is_admin" := JBool(isAdmin),
        "project_uuid" := JStr("-"), "owner_uuid" := JStr("-"), "visibility" := JStr("private")]
  }

  /** CreateUser::runTask; `isAdmin` is the request's flag, false when it was not given. */
  function CreateUser(name: string, projects: string, roles: string, password: string, isAdmin: bool,
                      existing: Option<Claims>, uuid: string, sha: string -> string,
                      addOk: bool, addError: string, reread: Option<Claims>): (r: Creation)
    // a taken name is a conflict and nothing is added
    ensures existing.Some? ==> r == Creation(Fail(Conflict, AlreadyExists(name)), None)
    ensures r.added.Some? <==> existing.None? && addOk
    // the stored record: salted hash, the request's fields and private, unowned bookkeeping
    ensures r.added.Some? ==>
              && r.added.value.Keys == {"uuid", "name", "roles", "projects", "pw_hash", "is_admin"} + Ownership
              && GetString(r.added.value, "pw_hash") == sha(password + uuid)
              && GetString(r.added.value, "uuid") == uuid
              && GetString(r.added.value, "name") == name
              && GetString(r.added.value, "roles") == roles
              && GetString(r.added.value, "projects") == projects
              && r.added.value["is_admin"] == JBool(isAdmin)
              && GetString(r.added.value, "project_uuid") == "-"
              && GetString(r.added.value, "owner_uuid") == "-"
              && GetString(r.added.value, "visibility") == "private"
    ensures existing.None? && !addOk ==> r.reply == Fail(InternalServerError, addError)
    ensures existing.None? && addOk && reread.None? ==> r.reply == Fail(InternalServerError, "")
    ensures r.reply.Ok? <==> existing.None? && addOk && reread.Some?
    // the output is the stored user without the ownership fields
    ensures r.reply.Ok? ==> r.reply.output.Keys == reread.value.Keys - Ownership &&
                            forall k :: k in r.reply.output ==> r.reply.output[k] == reread.value[k]
    ensures r.reply != Fault
  {
    if existing.Some? then Creation(Fail(Conflict, AlreadyExists(name)), None)
    else
      var record := NewRecord(uuid, name, roles, projects, sha(password + uuid), isAdmin);
      if !addOk then Creation(Fail(InternalServerError, addError), None)
      else match reread
        case None => Creation(Fail(InternalServerError, ""), Some(record))
        case Some(stored) => Creation(Ok(stored - Ownership), Some(record))
  }

  /**
    When the table reads the inserted record back with its hidden `pw_hash`
    left out, the output is exactly the user's uuid, name, roles, projects and
    admin flag as submitted.
   */
  lemma OutputShowsSubmittedUser(name: string, projects: string, roles: string, password: string,
                                 isAdmin: bool, uuid: string, sha: string -> string, addError: string)
    ensures var added := CreateUser(name, projects, roles, password, isAdmin, None, uuid, sha,
                                    true, addError, None).added;
            var r := CreateUser(name, projects, roles, password, isAdmin, None, uuid, sha,
                                true, addError, Some(added.value - {"pw_hash"})).reply;
            && r.Ok?
            && r.output.Keys == {"uuid", "name", "roles", "projects", "is_admin"}
            && r.output["uuid"] == JStr(uuid) && r.output["name"] == JStr(name)
            && r.output["roles"] == JStr(roles) && r.output["projects"] == JStr(projects)
            && r.output["is_admin"] == JBool(isAdmin)
  {
    var record := NewRecord(uuid, name, roles, projects, sha(password + uuid), isAdmin);
    var out := record - {"pw_hash"} - Ownership;
    assert out.Keys == {"uuid", "name", "roles", "projects", "is_admin"};
  }

  /**
    Two users registered with the same password get different stored hashes
    when the hash function tells their salted passwords apart: the salt is
    each user's own uuid.
   */
  lemma SaltSeparatesUsers(password: string, sha: string -> string,
                           name1: string, uuid1: string, name2: string, uuid2: string,
                           projects: string, roles: string, isAdmin: bool)
    requires forall a, b :: sha(a) == sha(b) ==> a == b
    requires uuid1 != uuid2
    ensures var r1 := CreateUser(name1, projects, roles, password, isAdmin, None, uuid1, sha, true, "", None);
            var r2 := CreateUser(name2, projects, roles, password, isAdmin, None, uuid2, sha, true, "", None);
            GetString(r1.added.value, "pw_hash") != GetString(r2.added.value, "pw_hash")
  {
    assert (password + uuid1)[|password|..] == uuid1;
    assert (password + uuid2)[|password|..] == uuid2;
  }
}

=== FILE: fields.dfy ===
/**
  The input-field rules the request handlers register in their constructors:
  length borders on strings, value borders on integers and character-class
  regular expressions. The request framework checks them before a handler
  runs; a regular expression is taken to match the whole field.
 */
module Fields {

  predicate IsLetter(c: char) { 'a' <= c <= 'z' || 'A' <= c <= 'Z' }

  predicate IsDigit(c: char) { '0' <= c <= '9' }

  /** `[a-zA-Z_0-9]` */
  predicate IsWordChar(c: char) { IsLetter(c) || c == '_' || IsDigit(c) }

  /** `[a-zA-Z_/0-9]` */
  predicate IsPathChar(c: char) { IsWordChar(c) || c == '/' }

  /** `[a-zA-Z_,0-9]` */
  predicate IsListChar(c: char) { IsWordChar(c) || c == ',' }

  /** `[a-zA-Z_.0-9]` */
  predicate IsTokenChar(c: char) { IsWordChar(c) || c == '.' }

  /** `[^=]` */
  predicate IsNotEquals(c: char) { c != '=' }

  /** Scans `s` left to right and accepts when every character is in the class `ok`. */
  function AllMatch(s: string, ok: char -> bool): (r: bool)
    ensures r <==> forall i :: 0 <= i < |s| ==> ok(s[i])
  {
    if |s| == 0 then true else ok(s[0]) && AllMatch(s[1..], ok)
  }

  /** A regular expression `[a-zA-Z]C*` for a class `C`: a letter, then class characters. */
  function LetterThen(s: string, ok: char -> bool): (r: bool)
    ensures r <==> |s| >= 1 && IsLetter(s[0]) && forall i :: 1 <= i < |s| ==> ok(s[i])
  {
    if |s| == 0 then false
    else
      var tail := s[1..];
      assert forall i :: 1 <= i < |s| ==> s[i] == tail[i - 1];
      IsLetter(s[0]) && AllMatch(tail, ok)
  }

  /** `addFieldBorder` on a string field: the length lies in `lo..hi`. */
  predicate InBorder(s: string, lo: nat, hi: nat) { lo <= |s| <= hi }

  /** `[a-zA-Z][a-zA-Z_0-9]*` */
  function IsName(s: string): bool { LetterThen(s, IsWordChar) }

  /** `[a-zA-Z][a-zA-Z_/0-9]*` */
  function IsEndpoint(s: string): bool { LetterThen(s, IsPathChar) }

  /** `[a-zA-Z][a-zA-Z_,0-9]*` */
  function IsNameList(s: string): bool { LetterThen(s, IsListChar) }

  /** `[a-zA-Z_.0-9]*` */
  function IsTokenText(s: string): bool { AllMatch(s, IsTokenChar) }

  /** `[^=]*` */
  function HasNoEquals(s: string): bool { AllMatch(s, IsNotEquals) }

  /** Rules of the access-validation request; absent optional fields are not checked. */
  predicate AccessRequestAccepted(token: string, component: string, componentGiven: bool,
                                  endpoint: string, endpointGiven: bool,
                                  httpType: int, httpTypeGiven: bool)
  {
    && IsTokenText(token)
    && (componentGiven ==> InBorder(component, 4, 256) && IsName(component))
    && (endpointGiven ==> InBorder(endpoint, 4, 256) && IsEndpoint(endpoint))
    && (httpTypeGiven ==> 1 <= httpType <= 5)
  }

  /** Rules of the v1 token request: name and passphrase. */
  predicate TokenRequestAccepted(name: string, pw: string) {
    && InBorder(name, 4, 256) && IsName(name)
    && InBorder(pw, 6, 4096) && HasNoEquals(pw)
  }

  /** Rules of the v1 user-creation request. */
  predicate NewUserAccepted(name: string, projects: string, roles: string, password: string) {
    && InBorder(name, 4, 256) && IsName(name)
    && IsNameList(projects)
    && IsNameList(roles)
    && InBorder(password, 6, 4096) && HasNoEquals(password)
  }

  /** Rules of the v1 request that removes a project from a user: both ids are names. */
  predicate RemoveRequestAccepted(userId: string, projectId: string) {
    && InBorder(userId, 4, 256) && IsName(userId)
    && InBorder(projectId, 4, 256) && IsName(projectId)
  }

  /**
    A project id the remove request accepts names exactly one project: it
    holds no comma. It also matches the registration's projects pattern, but
    that pattern only shapes the text registration stores; the membership
    handlers parse the stored column as JSON and never read the comma list
    back, so the two formats do not meet.
   */
  lemma RemovedProjectIsOneListEntry(userId: string, projectId: string)
    requires RemoveRequestAccepted(userId, projectId)
    ensures ',' !in projectId
    ensures IsNameList(projectId)
  {
  }

  /**
    Every name and password the user-creation request accepts is also accepted
    by the token request, so a created user can always submit credentials.
   */
  lemma NewUserCanRequestToken(name: string, projects: string, roles: string, password: string)
    requires NewUserAccepted(name, projects, roles, password)
    ensures TokenRequestAccepted(name, password)
  {
  }
}

=== FILE: membership.dfy ===
/**
  The admin-only requests that add a project to a user's membership list and
  remove one from it (src/api/v1/user/add_project_to_user.cpp and
  remove_project_from_user.cpp).

  Calls into the users table are inputs: `lookup` is the result of the first
  `getUser` (None when it fails), `parse` is the JSON parser of the stored
  `projects` text, `updateOk` says whether `updateProjectsOfUser` succeeds and
  `reread` is the result of the final `getUser` that fills the output. The
  outcome records the list handed to `updateProjectsOfUser`, if any.

  `userId` is the request's `id` field. Both requests register their user
  input as `user_id` but read `id`, which no request declares, so a caller
  sending only `user_id` gets `userId == ""`. The add request also attaches
  its length and regex rules to the undeclared `id`.

  Both handlers, as written, answer Conflict when the target user IS found,
  so they can only ever edit a user that does not exist. The `...AsWritten`
  functions model that; `AddProject` and `RemoveProject` are the evidently
  intended versions, which answer NotFound for a missing user and edit the
  user's stored list.
 */
module Membership {
  import opened Common
  import opened Projects

  /** The reply, and the membership list written back to the table (None: no update issued). */
  datatype EditOutcome = EditOutcome(reply: Reply, written: Option<seq<Entry>>)

  /** The entry the add request appends; note its role key is `roles`. */
  function NewEntry(projectId: string, roles: string, isProjectAdmin: bool): (e: Entry)
    ensures ProjectId(e) == projectId
    ensures GetString(e, "roles") == roles && GetBool(e, "is_project_admin") == isProjectAdmin
    ensures e.Keys == {"project_id", "roles", "is_project_admin"}
  {
    map["project_id" := JStr(projectId), "roles" := JStr(roles), "is_project_admin" := JBool(isProjectAdmin)]
  }

  function UserExists(userId: string): string {
    "User with id '" + userId + "' already exist."
  }

  function UserNotFound(userId: string): string {
    "User with id '" + userId + "' not found."
  }

  function AlreadyAssigned(projectId: string, userId: string): string {
    "Project with ID '" + projectId + "' is already assigned to user with id '" + userId + "'."
  }

  function NotAssigned(projectId: string, userId: string): string {
    "Project with ID '" + projectId + "' is not assigned to user with id '" + userId
    + "' and so it can not be removed from the user."
  }

  /** The update of the table and the re-read of the user, shared by both requests. */
  function Commit(updated: seq<Entry>, updateOk: bool, reread: Option<Claims>): (o: EditOutcome)
    ensures o.written == Some(updated)
    ensures o.reply.Ok? <==> updateOk && reread.Some?
    ensures o.reply.Ok? ==> o.reply.output == reread.value
    ensures !o.reply.Ok? ==> o.reply == Fail(InternalServerError, "")
  {
    if !updateOk then EditOutcome(Fail(InternalServerError, ""), Some(updated))
    else match reread
      case None => EditOutcome(Fail(InternalServerError, ""), Some(updated))
      case Some(user) => EditOutcome(Ok(user), Some(updated))
  }

  /** Parse the stored list, refuse a duplicate, append the new entry and write back. */
  function AppendProject(userId: string, projectId: string, roles: string, isProjectAdmin: bool,
                         projectsText: string, parse: string -> Option<seq<Entry>>,
                         updateOk: bool, reread: Option<Claims>): (o: EditOutcome)
    ensures parse(projectsText).None? ==> o == EditOutcome(Fail(InternalServerError, ""), None)
    ensures parse(projectsText).Some? && Assigned(parse(projectsText).value, projectId)
            ==> o == EditOutcome(Fail(Conflict, AlreadyAssigned(projectId, userId)), None)
    // the written list is the old list followed by exactly the new entry
    ensures o.written.Some? <==> parse(projectsText).Some? && !Assigned(parse(projectsText).value, projectId)
    ensures o.written.Some? ==>
              o.written.value == parse(projectsText).value + [NewEntry(projectId, roles, isProjectAdmin)]
    ensures o.reply.Ok? ==> o.written.Some? && updateOk && reread.Some? && o.reply.output == reread.value
    // once a list is written, the reply is the update's: the re-read user, or a 500
    ensures o.written.Some? ==> && (o.reply.Ok? <==> updateOk && reread.Some?)
                                && (!o.reply.Ok? ==> o.reply == Fail(InternalServerError, ""))
  {
    match parse(projectsText)
    case None => EditOutcome(Fail(InternalServerError, ""), None)
    case Some(list) =>
      if FindProject(list, projectId).Some?
      then EditOutcome(Fail(Conflict, AlreadyAssigned(projectId, userId)), None)
      else Commit(list + [NewEntry(projectId, roles, isProjectAdmin)], updateOk, reread)
  }

  /** Parse the stored list, delete the first entry for the project and write back. */
  function DropProject(userId: string, projectId: string, projectsText: string,
                       parse: string -> Option<seq<Entry>>,
                       updateOk: bool, reread: Option<Claims>): (o: EditOutcome)
    ensures parse(projectsText).None? ==> o == EditOutcome(Fail(InternalServerError, ""), None)
    ensures parse(projectsText).Some? && !Assigned(parse(projectsText).value, projectId)
            ==> o == EditOutcome(Fail(NotFound, NotAssigned(projectId, userId)), None)
    ensures o.written.Some? <==> parse(projectsText).Some? && Assigned(parse(projectsText).value, projectId)
    // the written list is the stored one with exactly its first entry for the project removed
    ensures o.written.Some? ==> o.written == RemoveFirst(parse(projectsText).value, projectId)
    ensures o.written.Some? ==> |o.written.value| == |parse(projectsText).value| - 1
    ensures o.reply.Ok? ==> o.written.Some? && updateOk && reread.Some? && o.reply.output == reread.value
    // once a list is written, the reply is the update's: the re-read user, or a 500
    ensures o.written.Some? ==> && (o.reply.Ok? <==> updateOk && reread.Some?)
                                && (!o.reply.Ok? ==> o.reply == Fail(InternalServerError, ""))
  {
    match parse(projectsText)
    case None => EditOutcome(Fail(InternalServerError, ""), None)
    case Some(list) =>
      match RemoveFirst(list, projectId)
      case None => EditOutcome(Fail(NotFound, NotAssigned(projectId, userId)), None)
      case Some(updated) => Commit(updated, updateOk, reread)
  }

  /**
    AddProjectToUser::runTask as written: the existence check of the target
    user is inverted, and on the path that goes on the user lookup has failed,
    so the projects text read from its empty result is "".
   */
  function AddProjectAsWritten(context: Claims, userId: string, projectId: string, roles: string,
                               isProjectAdmin: Option<bool>, lookup: Option<Claims>,
                               parse: string -> Option<seq<Entry>>,
                               updateOk: bool, reread: Option<Claims>): (o: EditOutcome)
    ensures !GetBool(context, "is_admin") ==> o == EditOutcome(Fail(Unauthorized, ""), None)
    // an existing user is refused as a conflict, so its list is never edited
    ensures GetBool(context, "is_admin") && lookup.Some?
            ==> o == EditOutcome(Fail(Conflict, UserExists(userId)), None)
    ensures o.written.Some? ==> lookup.None? && parse("").Some?
    // a missing user goes on to edit the list parsed from the empty text
    ensures GetBool(context, "is_admin") && lookup.None?
            ==> o == AppendProject(userId, projectId, roles, isProjectAdmin.GetOr(false), "", parse, updateOk, reread)
  {
    if !GetBool(context, "is_admin") then EditOutcome(Fail(Unauthorized, ""), None)
    else if lookup.Some? then EditOutcome(Fail(Conflict, UserExists(userId)), None)
    else AppendProject(userId, projectId, roles, isProjectAdmin.GetOr(false), "", parse, updateOk, reread)
  }

  /** AddProjectToUser::runTask with the existence check the handler evidently intends. */
  function AddProject(context: Claims, userId: string, projectId: string, roles: string,
                      isProjectAdmin: Option<bool>, lookup: Option<Claims>,
                      parse: string -> Option<seq<Entry>>,
                      updateOk: bool, reread: Option<Claims>): (o: EditOutcome)
    // a caller who is not a global admin is refused before anything is read or written
    ensures !GetBool(context, "is_admin") ==> o == EditOutcome(Fail(Unauthorized, ""), None)
    ensures GetBool(context, "is_admin") && lookup.None?
            ==> o == EditOutcome(Fail(NotFound, UserNotFound(userId)), None)
    // an edit happens only for an admin caller, an existing user and a project not yet assigned,
    // and appends exactly one entry, whose project-admin flag defaults to false
    ensures o.written.Some? <==>
              && GetBool(context, "is_admin") && lookup.Some?
              && parse(GetString(lookup.value, "projects")).Some?
              && !Assigned(parse(GetString(lookup.value, "projects")).value, projectId)
    ensures o.written.Some? ==>
              o.written.value == parse(GetString(lookup.value, "projects")).value
                                 + [NewEntry(projectId, roles, isProjectAdmin.GetOr(false))]
    ensures o.reply.Ok? ==> o.written.Some? && updateOk && reread.Some? && o.reply.output == reread.value
    // once a list is written, the reply is the update's: the re-read user, or a 500
    ensures o.written.Some? ==> && (o.reply.Ok? <==> updateOk && reread.Some?)
                                && (!o.reply.Ok? ==> o.reply == Fail(InternalServerError, ""))
  {
    if !GetBool(context, "is_admin") then EditOutcome(Fail(Unauthorized, ""), None)
    else match lookup
      case None => EditOutcome(Fail(NotFound, UserNotFound(userId)), None)
      case Some(user) =>
        AppendProject(userId, projectId, roles, isProjectAdmin.GetOr(false),
                      GetString(user, "projects"), parse, updateOk, reread)
  }

  /** RemoveProjectFromUser::runTask as written, with the same inverted existence check. */
  function RemoveProjectAsWritten(context: Claims, userId: string, projectId: string,
                                  lookup: Option<Claims>, parse: string -> Option<seq<Entry>>,
                                  updateOk: bool, reread: Option<Claims>): (o: EditOutcome)
    ensures !GetBool(context, "is_admin") ==> o == EditOutcome(Fail(Unauthorized, ""), None)
    ensures GetBool(context, "is_admin") && lookup.Some?
            ==> o == EditOutcome(Fail(Conflict, UserExists(userId)), None)
    ensures o.written.Some? ==> lookup.None? && parse("").Some?
    // a missing user goes on to remove from the list parsed from the empty text
    ensures GetBool(context, "is_admin") && lookup.None?
            ==> o == DropProject(userId, projectId, "", parse, updateOk, reread)
  {
    if !GetBool(context, "is_admin") then EditOutcome(Fail(Unauthorized, ""), None)
    else if lookup.Some? then EditOutcome(Fail(Conflict, UserExists(userId)), None)
    else DropProject(userId, projectId, "", parse, updateOk, reread)
  }

  /** RemoveProjectFromUser::runTask with the existence check the handler evidently intends. */
  function RemoveProject(context: Claims, userId: string, projectId: string,
                         lookup: Option<Claims>, parse: string -> Option<seq<Entry>>,
                         updateOk: bool, reread: Option<Claims>): (o: EditOutcome)
    ensures !GetBool(context, "is_admin") ==> o == EditOutcome(Fail(Unauthorized, ""), None)
    ensures GetBool(context, "is_admin") && lookup.None?
            ==> o == EditOutcome(Fail(NotFound, UserNotFound(userId)), None)
    ensures o.written.Some? <==>
              && GetBool(context, "is_admin") && lookup.Some?
              && parse(GetString(lookup.value, "projects")).Some?
              && Assigned(parse(GetString(lookup.value, "projects")).value, projectId)
    ensures o.written.Some? ==>
              o.written == RemoveFirst(parse(GetString(lookup.value, "projects")).value, projectId)
    ensures o.reply.Ok? ==> o.written.Some? && updateOk && reread.Some? && o.reply.output == reread.value
    // once a list is written, the reply is the update's: the re-read user, or a 500
    ensures o.written.Some? ==> && (o.reply.Ok? <==> updateOk && reread.Some?)
                                && (!o.reply.Ok? ==> o.reply == Fail(InternalServerError, ""))
  {
    if !GetBool(context, "is_admin") then EditOutcome(Fail(Unauthorized, ""), None)
    else match lookup
      case None => EditOutcome(Fail(NotFound, UserNotFound(userId)), None)
      case Some(user) => DropProject(userId, projectId, GetString(user, "projects"), parse, updateOk, reread)
  }

  /**
    The inverted check as written: whatever the table holds, an admin request
    about an existing user never reaches the list edit, in either handler.
   */
  lemma AsWrittenNeverEditsExistingUser(context: Claims, userId: string, projectId: string, roles: string,
                                        isProjectAdmin: Option<bool>, user: Claims,
                                        parse: string -> Option<seq<Entry>>,
                                        updateOk: bool, reread: Option<Claims>)
    requires GetBool(context, "is_admin")
    requires parse(GetString(user, "projects")).Some?
    requires !Assigned(parse(GetString(user, "projects")).value, projectId)
    ensures AddProjectAsWritten(context, userId, projectId, roles, isProjectAdmin, Some(user),
                                parse, updateOk, reread).written.None?
    ensures AddProject(context, userId, projectId, roles, isProjectAdmin, Some(user),
                       parse, updateOk, reread).written.Some?
    ensures RemoveProjectAsWritten(context, userId, projectId, Some(user), parse, updateOk, reread).reply
         == Fail(Conflict, UserExists(userId))
  {
  }

  /** Adding a project keeps the project ids of the stored list unique. */
  lemma AddKeepsUnique(context: Claims, userId: string, projectId: string, roles: string,
                       isProjectAdmin: Option<bool>, lookup: Option<Claims>,
                       parse: string -> Option<seq<Entry>>, updateOk: bool, reread: Option<Claims>)
    requires lookup.Some? && parse(GetString(lookup.value, "projects")).Some?
    requires UniqueIds(parse(GetString(lookup.value, "projects")).value)
    ensures var o := AddProject(context, userId, projectId, roles, isProjectAdmin, lookup, parse, updateOk, reread);
            o.written.Some? ==> UniqueIds(o.written.value)
  {
    var o := AddProject(context, userId, projectId, roles, isProjectAdmin, lookup, parse, updateOk, reread);
    if o.written.Some? {
      AppendKeepsUnique(parse(GetString(lookup.value, "projects")).value,
                        NewEntry(projectId, roles, isProjectAdmin.GetOr(false)));
    }
  }

  /**
    Round trip through both requests: when the list written by adding a
    project is what the remove request later reads, removing that project
    writes back the list as it was before the add.
   */
  lemma AddThenRemoveRestores(context: Claims, userId: string, projectId: string, roles: string,
                              isProjectAdmin: Option<bool>, before: Claims, after: Claims,
                              parse: string -> Option<seq<Entry>>,
                              updateOk: bool, reread: Option<Claims>)
    requires AddProject(context, userId, projectId, roles, isProjectAdmin, Some(before),
                        parse, updateOk, reread).written.Some?
    requires parse(GetString(after, "projects"))
          == AddProject(context, userId, projectId, roles, isProjectAdmin, Some(before),
                        parse, updateOk, reread).written
    ensures RemoveProject(context, userId, projectId, Some(after), parse, updateOk, reread).written
         == parse(GetString(before, "projects"))
  {
    var prior := parse(GetString(before, "projects")).value;
    var e := NewEntry(projectId, roles, isProjectAdmin.GetOr(false));
    RemoveAppended(prior, e);
    assert (prior + [e])[|prior|] == e;
  }
}

=== FILE: policy.dfy ===
/**
  The interface of the policy engine as the access checks use it. The policy
  library itself (rule-file parsing and matching) is not part of this model:
  its answer for one (component, endpoint, HTTP type, role) quadruple is the
  parameter `check`.
 */
module Policy {

  /** `checkUserAgainstPolicy(component, endpoint, httpType, role)`. */
  type PolicyCheck = (string, string, int, string) -> bool

  /**
    The request's integer `http_type` converted to the 32-bit HTTP-type enum:
    a C++ conversion to `uint32_t` keeps the value modulo 2^32.
   */
  function HttpType(v: int): (t: int)
    ensures 0 <= t < 0x1_0000_0000
    ensures 0 <= v < 0x1_0000_0000 ==> t == v
    ensures (t - v) % 0x1_0000_0000 == 0
  {
    v % 0x1_0000_0000
  }

  /**
    The loop over the roles of a user: a flag is set for every role the policy
    permits and the loop never exits early, so the result is the disjunction.
    Defined over the prefix processed so far, in the loop's order.
   */
  function AnyRolePermits(check: PolicyCheck, component: string, endpoint: string,
                          httpType: int, roles: seq<string>): (r: bool)
    ensures r <==> exists i :: 0 <= i < |roles| && check(component, endpoint, httpType, roles[i])
    decreases |roles|
  {
    if |roles| == 0 then false
    else
      var n := |roles| - 1;
      var before := roles[..n];
      assert forall i :: 0 <= i < n ==> before[i] == roles[i];
      AnyRolePermits(check, component, endpoint, httpType, before)
      || check(component, endpoint, httpType, roles[n])
  }

  /**
    The decision depends only on which roles occur: neither their order nor
    repetitions change it.
   */
  lemma DecisionIgnoresOrder(check: PolicyCheck, component: string, endpoint: string,
                             httpType: int, roles1: seq<string>, roles2: seq<string>)
    requires forall x :: x in roles1 <==> x in roles2
    ensures AnyRolePermits(check, component, endpoint, httpType, roles1)
         == AnyRolePermits(check, component, endpoint, httpType, roles2)
  {
    if AnyRolePermits(check, component, endpoint, httpType, roles1) {
      var i :| 0 <= i < |roles1| && check(component, endpoint, httpType, roles1[i]);
      assert roles1[i] in roles2;
      var j :| 0 <= j < |roles2| && roles2[j] == roles1[i];
    }
    if AnyRolePermits(check, component, endpoint, httpType, roles2) {
      var i :| 0 <= i < |roles2| && check(component, endpoint, httpType, roles2[i]);
      assert roles2[i] in roles1;
      var j :| 0 <= j < |roles1| && roles1[j] == roles2[i];
    }
  }
}

=== FILE: projects.dfy ===
/**
  Project memberships of a user: the JSON list stored in the user's
  `projects` column, one object per assigned project with its `project_id`,
  role(s) and project-admin flag. The searches over this list in the renewal,
  add and remove requests all look for the FIRST entry with a given id.
 */
module Projects {
  import opened Common

  /** One membership entry, a JSON object. */
  type Entry = Claims

  /** `entry.get("project_id").getString()` */
  function ProjectId(e: Entry): string {
    GetString(e, "project_id")
  }

  /** Index `i` holds the first entry of `xs` whose project id is `id`. */
  ghost predicate FirstMatch(xs: seq<Entry>, id: string, i: int) {
    0 <= i < |xs| && ProjectId(xs[i]) == id &&
    forall j :: 0 <= j < i ==> ProjectId(xs[j]) != id
  }

  /** The index of the first entry with project id `id`, scanning from the front. */
  function FindProject(xs: seq<Entry>, id: string): (r: Option<nat>)
    ensures r.Some? ==> FirstMatch(xs, id, r.value)
    ensures r.None? <==> forall j :: 0 <= j < |xs| ==> ProjectId(xs[j]) != id
    decreases |xs|
  {
    if |xs| == 0 then None
    else if ProjectId(xs[0]) == id then Some(0)
    else
      match FindProject(xs[1..], id)
      case None => None
      case Some(i) => Some(i + 1)
  }

  /** Whether any entry of `xs` is for project `id`. */
  ghost predicate Assigned(xs: seq<Entry>, id: string) {
    exists j :: 0 <= j < |xs| && ProjectId(xs[j]) == id
  }

  /** No two entries are for the same project. */
  ghost predicate UniqueIds(xs: seq<Entry>) {
    forall i, j :: 0 <= i < j < |xs| ==> ProjectId(xs[i]) != ProjectId(xs[j])
  }

  /**
    The list without its first entry for project `id` (`parsedProjects.remove(i)`
    followed by `break`), or None when no entry is for `id`.
   */
  function RemoveFirst(xs: seq<Entry>, id: string): (r: Option<seq<Entry>>)
    ensures r.None? <==> !Assigned(xs, id)
    ensures r.Some? ==> |r.value| == |xs| - 1
    // the entries before the first match stay in place, those after it move up by one
    ensures r.Some? ==> exists i :: (FirstMatch(xs, id, i) &&
                                     (forall j :: 0 <= j < i ==> r.value[j] == xs[j]) &&
                                     (forall j :: i <= j < |r.value| ==> r.value[j] == xs[j + 1]))
  {
    match FindProject(xs, id)
    case None => None
    case Some(i) => Some(xs[..i] + xs[i + 1..])
  }

  /** Appending an entry for a project not yet assigned keeps project ids unique. */
  lemma AppendKeepsUnique(xs: seq<Entry>, e: Entry)
    requires UniqueIds(xs) && !Assigned(xs, ProjectId(e))
    ensures UniqueIds(xs + [e])
  {
    var ys := xs + [e];
    forall i, j | 0 <= i < j < |ys|
      ensures ProjectId(ys[i]) != ProjectId(ys[j])
    {
      if j == |xs| {
        assert ys[i] == xs[i];
      }
    }
  }

  /** Removing an entry keeps project ids unique. */
  lemma RemoveKeepsUnique(xs: seq<Entry>, id: string)
    requires UniqueIds(xs) && Assigned(xs, id)
    ensures UniqueIds(RemoveFirst(xs, id).value)
  {
    var i := FindProject(xs, id).value;
    var ys := RemoveFirst(xs, id).value;
    assert ys == xs[..i] + xs[i + 1..];
    forall a, b | 0 <= a < b < |ys|
      ensures ProjectId(ys[a]) != ProjectId(ys[b])
    {
      var a' := if a < i then a else a + 1;
      var b' := if b < i then b else b + 1;
      assert ys[a] == xs[a'] && ys[b] == xs[b'] && a' < b';
    }
  }

  /** With unique ids, the removed entry was the only one for `id`: none is left. */
  lemma RemoveUniqueLeavesNone(xs: seq<Entry>, id: string)
    requires UniqueIds(xs) && Assigned(xs, id)
    ensures !Assigned(RemoveFirst(xs, id).value, id)
  {
    var i := FindProject(xs, id).value;
    var ys := RemoveFirst(xs, id).value;
    assert ys == xs[..i] + xs[i + 1..];
    forall j | 0 <= j < |ys|
      ensures ProjectId(ys[j]) != id
    {
      if j >= i {
        assert ys[j] == xs[j + 1];
      }
    }
  }

  /**
    Round trip: appending an entry for a fresh project and then removing that
    project restores the original list.
   */
  lemma RemoveAppended(xs: seq<Entry>, e: Entry)
    requires !Assigned(xs, ProjectId(e))
    ensures RemoveFirst(xs + [e], ProjectId(e)) == Some(xs)
  {
    var ys := xs + [e];
    assert ys[|xs|] == e;
    var i := FindProject(ys, ProjectId(e)).value;
    assert i == |xs|;
    assert ys[..i] + ys[i + 1..] == xs;
  }
}

=== FILE: renew_token.dfy ===
/**
  Token renewal (src/api/v1/auth/renew_token.cpp): re-issue a token for the
  calling user with a newly selected project context, without a password.
  A global admin may also select the synthetic project `admin`.

  Inputs standing for calls not modelled: `lookup` is the user row read by
  `getUser` (None when it fails), `parse` the JSON parser for its `projects`
  text, and `sign(claims, ttl)` the JWT library's `create_HS256_Token`.
 */
module Renewal {
  import opened Common
  import opened Projects

  /** The project added to the choosable list of a global admin. */
  const AdminProject: Entry :=
    map["project_id" := JStr("admin"), "role" := JStr("admin"), "is_project_admin" := JBool(true)]

  /** The projects a user may select: the stored ones, then `admin` for a global admin. */
  function Choosable(stored: seq<Entry>, isAdmin: bool): (r: seq<Entry>)
    ensures |r| == |stored| + (if isAdmin then 1 else 0)
    ensures r[..|stored|] == stored
    ensures isAdmin ==> r[|stored|] == AdminProject && ProjectId(r[|stored|]) == "admin"
  {
    if isAdmin then stored + [AdminProject] else stored
  }

  /** The claims of the user once `e` is the selected project (`projects` replaced by its fields). */
  function Select(userData: Claims, e: Entry): (c: Claims)
    ensures "projects" !in c
    ensures "project_id" in c && "role" in c && "is_project_admin" in c
    ensures c["project_id"] == FieldOr(e, "project_id")
    ensures c["role"] == FieldOr(e, "role")
    ensures c["is_project_admin"] == FieldOr(e, "is_project_admin")
    // every other field of the user is carried over unchanged
    ensures forall k :: k !in {"projects", "project_id", "role", "is_project_admin"} ==>
              (k in c <==> k in userData) && (k in c ==> c[k] == userData[k])
  {
    (userData - {"projects"})["project_id" := FieldOr(e, "project_id")]
                             ["role" := FieldOr(e, "role")]
                             ["is_project_admin" := FieldOr(e, "is_project_admin")]
  }

  /** The in/out user data and the boolean result of `chooseProject`. */
  datatype Choice = Choice(found: bool, userData: Claims)

  /** RenewToken::chooseProject: take the fields of the first entry for the selected project. */
  function ChooseProject(userData: Claims, projects: seq<Entry>, selected: string): (r: Choice)
    ensures r.found <==> Assigned(projects, selected)
    // a failed selection leaves the user data as it was
    ensures !r.found ==> r.userData == userData
    ensures r.found ==> exists i :: FirstMatch(projects, selected, i) && r.userData == Select(userData, projects[i])
  {
    match FindProject(projects, selected)
    case None => Choice(false, userData)
    case Some(i) => Choice(true, Select(userData, projects[i]))
  }

  function NotAssignedMessage(userId: string, projectId: string): string {
    "User with id '" + userId + "' is not assigned to the project with id '" + projectId + "'."
  }

  /** RenewToken::runTask for the user `userId` of the request context. */
  function RenewToken(userId: string, projectId: string, lookup: Option<Claims>,
                      parse: string -> Option<seq<Entry>>,
                      sign: (Claims, nat) -> Option<string>): (r: Reply)
    ensures lookup.None? ==> r == Fail(InternalServerError, "")
    ensures lookup.Some? && parse(GetString(lookup.value, "projects")).None? ==> r == Fail(InternalServerError, "")
    // a project the user may not choose is refused
    ensures lookup.Some? && parse(GetString(lookup.value, "projects")).Some? &&
            !Assigned(Choosable(parse(GetString(lookup.value, "projects")).value,
                                GetBool(lookup.value, "is_admin")), projectId)
            ==> r == Fail(Unauthorized, NotAssignedMessage(userId, projectId))
    // on success the output holds exactly the id, admin flag, name and new token
    ensures r.Ok? ==> r.output.Keys == {"id", "is_admin", "name", "token"}
    // a choosable project succeeds exactly when the signer does; the token is signed over the
    // user's data with the selected project's fields in place of `projects`
    ensures lookup.Some? && parse(GetString(lookup.value, "projects")).Some? &&
            Assigned(Choosable(parse(GetString(lookup.value, "projects")).value,
                               GetBool(lookup.value, "is_admin")), projectId)
            ==> var chosen := ChooseProject(lookup.value,
                                            Choosable(parse(GetString(lookup.value, "projects")).value,
                                                      GetBool(lookup.value, "is_admin")),
                                            projectId).userData;
                && (r.Ok? <==> sign(chosen, TokenTtl).Some?)
                && (!r.Ok? ==> r == Fail(InternalServerError, ""))
                && (r.Ok? ==> r.output["token"] == JStr(sign(chosen, TokenTtl).value))
    ensures r.Ok? ==> r.output["id"] == JStr(userId) &&
                      r.output["is_admin"] == JBool(GetBool(lookup.value, "is_admin")) &&
                      r.output["name"] == JStr(GetString(lookup.value, "name"))
    ensures r != Fault
  {
    match lookup
    case None => Fail(InternalServerError, "")
    case Some(userData) =>
      match parse(GetString(userData, "projects"))
      case None => Fail(InternalServerError, "")
      case Some(stored) =>
        var isAdmin := GetBool(userData, "is_admin");
        var choice := ChooseProject(userData, Choosable(stored, isAdmin), projectId);
        if !choice.found then Fail(Unauthorized, NotAssignedMessage(userId, projectId))
        else match sign(choice.userData, TokenTtl)
          case None => Fail(InternalServerError, "")
          case Some(token) =>
            Ok(map["id" := JStr(userId), "is_admin" := JBool(isAdmin),
                   "name" := JStr(GetString(choice.userData, "name")), "token" := JStr(token)])
  }

  /**
    The new token is signed for one hour over the user's data with `projects`
    replaced by the fields of the first choosable entry for the selected
    project: its id, its role and its project-admin flag, every other field
    of the user unchanged.
   */
  lemma RenewedTokenCarriesSelection(userId: string, projectId: string, lookup: Option<Claims>,
                                     parse: string -> Option<seq<Entry>>,
                                     sign: (Claims, nat) -> Option<string>)
    requires RenewToken(userId, projectId, lookup, parse, sign).Ok?
    ensures var out := RenewToken(userId, projectId, lookup, parse, sign).output;
            var list := Choosable(parse(GetString(lookup.value, "projects")).value,
                                  GetBool(lookup.value, "is_admin"));
            exists i :: && FirstMatch(list, projectId, i)
                        && sign(Select(lookup.value, list[i]), TokenTtl) == Some(GetString(out, "token"))
  {
    var userData := lookup.value;
    var list := Choosable(parse(GetString(userData, "projects")).value, GetBool(userData, "is_admin"));
    var i := FindProject(list, projectId).value;
    assert FirstMatch(list, projectId, i);
  }

  /** A global admin can always renew into the `admin` project, whatever its stored memberships. */
  lemma AdminMayAlwaysSelectAdmin(userId: string, userData: Claims,
                                  parse: string -> Option<seq<Entry>>,
                                  sign: (Claims, nat) -> Option<string>)
    requires GetBool(userData, "is_admin")
    requires parse(GetString(userData, "projects")).Some?
    requires forall c :: sign(c, TokenTtl).Some?
    ensures RenewToken(userId, "admin", Some(userData), parse, sign).Ok?
  {
    var stored := parse(GetString(userData, "projects")).value;
    var list := Choosable(stored, true);
    assert ProjectId(list[|stored|]) == "admin";
  }

  /** A user who is not a global admin cannot select `admin` unless it is a stored membership. */
  lemma NonAdminCannotSelectAdmin(userId: string, userData: Claims,
                                  parse: string -> Option<seq<Entry>>,
                                  sign: (Claims, nat) -> Option<string>)
    requires !GetBool(userData, "is_admin")
    requires parse(GetString(userData, "projects")).Some?
    requires !Assigned(parse(GetString(userData, "projects")).value, "admin")
    ensures RenewToken(userId, "admin", Some(userData), parse, sign).Fail?
  {
  }
}

=== FILE: strings.dfy ===
/**
  Splitting a string at a delimiter character and joining a list of strings
  with one. The service splits comma-separated role and group lists and the
  dot-separated segments of a JWT; it joins group lists before storing them.

  The split helper of the string library is not part of this model; `Split`
  below cuts at every delimiter and maps the empty string to the empty list.
 */
module Strings {

  /** The pieces between the delimiters of `s`; always at least one. */
  function Pieces(s: string, d: char): (r: seq<string>)
    ensures |r| >= 1
    ensures forall k :: 0 <= k < |r| ==> d !in r[k]
    decreases |s|
  {
    if |s| == 0 then [""]
    else if s[0] == d then [""] + Pieces(s[1..], d)
    else
      var rest := Pieces(s[1..], d);
      [[s[0]] + rest[0]] + rest[1..]
  }

  /** Split at every occurrence of `d`; the empty string has no elements. */
  function Split(s: string, d: char): (r: seq<string>)
    ensures s == "" <==> |r| == 0
    ensures forall k :: 0 <= k < |r| ==> d !in r[k]
  {
    if s == "" then [] else Pieces(s, d)
  }

  /** The elements of `xs` with one `d` between neighbours, none before or after. */
  function Join(xs: seq<string>, d: char): string
  {
    if |xs| == 0 then ""
    else if |xs| == 1 then xs[0]
    else xs[0] + [d] + Join(xs[1..], d)
  }

  /** No element contains the delimiter. */
  predicate Free(xs: seq<string>, d: char) {
    forall k :: 0 <= k < |xs| ==> d !in xs[k]
  }

  /** A delimiter-free string is a single piece. */
  lemma {:induction false} PiecesOfFree(a: string, d: char)
    requires d !in a
    ensures Pieces(a, d) == [a]
    decreases |a|
  {
    if |a| > 0 {
      PiecesOfFree(a[1..], d);
      assert a[0] != d;
      assert [a[0]] + a[1..] == a;
    }
  }

  /** A delimiter-free head is cut off as the first piece. */
  lemma {:induction false} PiecesOfCons(a: string, b: string, d: char)
    requires d !in a
    ensures Pieces(a + [d] + b, d) == [a] + Pieces(b, d)
    decreases |a|
  {
    var s := a + [d] + b;
    if |a| == 0 {
      assert s[0] == d && s[1..] == b;
    } else {
      assert s[0] == a[0] && s[1..] == a[1..] + [d] + b;
      PiecesOfCons(a[1..], b, d);
      assert [a[0]] + a[1..] == a;
    }
  }

  /** Splitting a joined list recovers the list (pieces form). */
  lemma {:induction false} PiecesOfJoin(xs: seq<string>, d: char)
    requires |xs| >= 1 && Free(xs, d)
    ensures Pieces(Join(xs, d), d) == xs
    decreases |xs|
  {
    if |xs| == 1 {
      PiecesOfFree(xs[0], d);
    } else {
      PiecesOfJoin(xs[1..], d);
      PiecesOfCons(xs[0], Join(xs[1..], d), d);
      assert [xs[0]] + xs[1..] == xs;
    }
  }

  /** Joining the pieces of a string gives the string back. */
  lemma {:induction false} JoinOfPieces(s: string, d: char)
    ensures Join(Pieces(s, d), d) == s
    decreases |s|
  {
    if |s| > 0 {
      JoinOfPieces(s[1..], d);
      var rest := Pieces(s[1..], d);
      if s[0] == d {
        assert Pieces(s, d)[1..] == rest;
        assert s == [d] + s[1..];
      } else {
        var p := Pieces(s, d);
        assert p[0] == [s[0]] + rest[0];
        assert p[1..] == rest[1..];
        if |rest| == 1 {
          assert s == [s[0]] + s[1..];
        } else {
          assert Join(rest, d) == rest[0] + [d] + Join(rest[1..], d);
          assert s == [s[0]] + s[1..];
        }
      }
    }
  }

  /** Join is the empty string exactly for the empty list and the list of one empty string. */
  lemma JoinEmpty(xs: seq<string>, d: char)
    ensures Join(xs, d) == "" <==> xs == [] || xs == [""]
  {
    if |xs| >= 2 {
      assert |Join(xs, d)| >= 1;
    }
  }

  /**
    Round trip: splitting a joined list recovers it, provided no element holds
    the delimiter and the list is not the single empty string (which joins to
    "" like the empty list does).
   */
  lemma SplitJoin(xs: seq<string>, d: char)
    requires Free(xs, d) && xs != [""]
    ensures Split(Join(xs, d), d) == xs
  {
    JoinEmpty(xs, d);
    if |xs| >= 1 {
      PiecesOfJoin(xs, d);
    }
  }

  /** Round trip the other way: joining the split of any string gives it back. */
  lemma JoinSplit(s: string, d: char)
    ensures Join(Split(s, d), d) == s
  {
    if s != "" {
      JoinOfPieces(s, d);
    }
  }

  /** Appending one element to a non-empty list adds one delimiter and the element. */
  lemma {:induction false} JoinSnoc(xs: seq<string>, x: string, d: char)
    requires |xs| >= 1
    ensures Join(xs + [x], d) == Join(xs, d) + [d] + x
    decreases |xs|
  {
    if |xs| > 1 {
      assert (xs + [x])[1..] == xs[1..] + [x];
      JoinSnoc(xs[1..], x, d);
    }
  }

  /** A string splits into two or more pieces exactly when it contains the delimiter. */
  lemma {:induction false} PiecesCount(s: string, d: char)
    ensures d in s <==> |Pieces(s, d)| >= 2
    decreases |s|
  {
    if d !in s {
      PiecesOfFree(s, d);
    } else if s[0] != d {
      assert d in s[1..];
      PiecesCount(s[1..], d);
    }
  }

  /** Splitting yields at least two elements exactly when the delimiter occurs. */
  lemma SplitCount(s: string, d: char)
    ensures d in s <==> |Split(s, d)| >= 2
  {
    if s != "" {
      PiecesCount(s, d);
    }
  }
}

=== FILE: users_database.dfy ===
/**
  The SQLite-backed users database of the older revision
  (src/users/users_database.cpp). An open/closed flag guards every
  operation: records can be added and read only while the database is open,
  and opening an open database is refused.

  The SQLite engine is modelled as the list of stored records: an insert
  appends a record, a select by user id returns the matching records in
  storage order. Whether the engine call itself succeeds is an input
  (`initOk`, `tableOk`, `execOk`, `closeOk`), as is the engine's error text.
  The mutex that serialises the operations is left out: each operation is
  one atomic step.
 */
module UsersDatabase {
  import opened Common

  /** UsersDatabase::UserData */
  datatype UserData = UserData(userId: string, pwHash: string, isAdmin: bool)

  /** A stored row: the text of its cells user_id, pw_hash and is_admin. */
  datatype Record = Record(userId: string, pwHash: string, isAdmin: string)

  /** The open flag, the recorded path and the contents of the opened database. */
  datatype State = State(isOpen: bool, path: string, records: seq<Record>)

  /** The boolean result of an operation and the state after it. */
  datatype Step = Step(ok: bool, state: State)

  /**
    The boolean result of `addUser`/`getUser`, the `data` out-parameter (left
    as the caller passed it on failure), the `errorMessage` written, if any,
    and the state after the call.
   */
  datatype Answer = Answer(ok: bool, data: UserData, message: Option<string>, state: State)

  const NotOpen: string := "database not open"

  function NotFoundMessage(userId: string): string {
    "User with ID '" + userId + "' not found;"
  }

  /**
    UsersDatabase::initDatabase. `fileRecords` are the records found in the
    database at `path`; the result of a successful open is the result of
    creating the users table.
   */
  function InitDatabase(s: State, path: string, initOk: bool, tableOk: bool, fileRecords: seq<Record>): (r: Step)
    ensures s.isOpen ==> r == Step(false, s)
    ensures !s.isOpen && initOk ==> r.state == State(true, path, fileRecords) && r.ok == tableOk
    ensures !s.isOpen && !initOk ==> r == Step(false, s)
    // the database is open afterwards exactly when it was already, or the engine opened it
    ensures r.state.isOpen <==> s.isOpen || initOk
  {
    if s.isOpen then Step(false, s)
    else if initOk then Step(tableOk, State(true, path, fileRecords))
    else Step(false, s)
  }

  /** UsersDatabase::closeDatabase */
  function CloseDatabase(s: State, closeOk: bool): (r: Step)
    ensures !s.isOpen ==> r == Step(true, s)
    ensures s.isOpen && closeOk ==> r.ok && !r.state.isOpen
    // a failed close leaves the database open and reports false
    ensures !r.ok <==> s.isOpen && !closeOk
    ensures !r.ok ==> r.state == s
    ensures r.state.path == s.path && r.state.records == s.records
  {
    if !s.isOpen then Step(true, s)
    else if closeOk then Step(true, s.(isOpen := false))
    else Step(false, s)
  }

  /** The cells `addUser` inserts, with `is_admin` written by `std::to_string`. */
  function ToRecord(data: UserData): (rec: Record)
    ensures rec.userId == data.userId && rec.pwHash == data.pwHash
    ensures rec.isAdmin == "1" <==> data.isAdmin
  {
    Record(data.userId, data.pwHash, BoolToString(data.isAdmin))
  }

  /** UsersDatabase::addUser */
  function AddUser(s: State, data: UserData, execOk: bool, sqlError: string): (r: Answer)
    ensures !s.isOpen ==> r == Answer(false, data, Some(NotOpen), s)
    ensures r.ok <==> s.isOpen && execOk
    // a successful insert appends exactly one record; otherwise nothing is stored
    ensures r.ok ==> r.state == s.(records := s.records + [ToRecord(data)])
    ensures !r.ok ==> r.state == s
    ensures r.data == data
  {
    if !s.isOpen then Answer(false, data, Some(NotOpen), s)
    else if !execOk then Answer(false, data, Some(sqlError), s)
    else Answer(true, data, None, s.(records := s.records + [ToRecord(data)]))
  }

  /** The records a select by user id returns, in storage order. */
  function Select(records: seq<Record>, userId: string): (rows: seq<Record>)
    ensures forall k :: 0 <= k < |rows| ==> rows[k].userId == userId && rows[k] in records
    ensures (exists k :: 0 <= k < |records| && records[k].userId == userId) <==> |rows| > 0
    decreases |records|
  {
    if |records| == 0 then []
    else
      var rest := Select(records[1..], userId);
      assert forall k :: 1 <= k < |records| ==> records[k] == records[1..][k - 1];
      if records[0].userId == userId then [records[0]] + rest else rest
  }

  /** UsersDatabase::getUser: cells 0, 1 and 2 of the first selected row; `is_admin` is true for "1". */
  function GetUser(s: State, prior: UserData, userId: string, execOk: bool, sqlError: string): (r: Answer)
    ensures !s.isOpen ==> r == Answer(false, prior, Some(NotOpen), s)
    ensures r.state == s
    ensures r.ok <==> s.isOpen && execOk && |Select(s.records, userId)| > 0
    ensures s.isOpen && execOk && |Select(s.records, userId)| == 0
            ==> r == Answer(false, prior, Some(NotFoundMessage(userId)), s)
    ensures !r.ok ==> r.data == prior
    ensures r.ok ==> r.data.userId == userId && r.message.None?
    // hash from cell 1 and admin flag as `cell 2 == "1"` of the first selected row
    ensures r.ok ==> r.data.pwHash == Select(s.records, userId)[0].pwHash &&
                     (r.data.isAdmin <==> Select(s.records, userId)[0].isAdmin == "1")
  {
    if !s.isOpen then Answer(false, prior, Some(NotOpen), s)
    else if !execOk then Answer(false, prior, Some(sqlError), s)
    else
      var rows := Select(s.records, userId);
      if |rows| == 0 then Answer(false, prior, Some(NotFoundMessage(userId)), s)
      else Answer(true, UserData(rows[0].userId, rows[0].pwHash, rows[0].isAdmin == "1"), None, s)
  }

  /** The id does not occur among the stored records. */
  predicate Fresh(s: State, userId: string) {
    forall k :: 0 <= k < |s.records| ==> s.records[k].userId != userId
  }

  /**
    Round trip: a user added under a fresh id is read back with the same id,
    hash and admin flag; `is_admin` written as `to_string(bool)` and read as
    `cell == "1"` keeps its value.
   */
  lemma AddThenGet(s: State, data: UserData, prior: UserData, sqlError: string)
    requires s.isOpen && Fresh(s, data.userId)
    ensures var added := AddUser(s, data, true, sqlError);
            added.ok &&
            GetUser(added.state, prior, data.userId, true, sqlError).data == data
  {
    var s' := AddUser(s, data, true, sqlError).state;
    SelectAppendFresh(s.records, ToRecord(data));
    assert Select(s'.records, data.userId) == [ToRecord(data)];
  }

  /** Selecting a fresh id after appending its record yields only that record. */
  lemma {:induction false} SelectAppendFresh(records: seq<Record>, rec: Record)
    requires forall k :: 0 <= k < |records| ==> records[k].userId != rec.userId
    ensures Select(records + [rec], rec.userId) == [rec]
    decreases |records|
  {
    if |records| == 0 {
      assert Select([rec][1..], rec.userId) == [];
    } else {
      assert (records + [rec])[1..] == records[1..] + [rec];
      SelectAppendFresh(records[1..], rec);
    }
  }

  /** One call on the database object, with the engine's answers it receives. */
  datatype Op =
    | Init(path: string, initOk: bool, tableOk: bool, fileRecords: seq<Record>)
    | Close(closeOk: bool)
    | Add(data: UserData, execOk: bool, sqlError: string)
    | Get(userId: string, execOk: bool, sqlError: string)

  function Apply(s: State, op: Op): State {
    match op
    case Init(path, initOk, tableOk, fileRecords) => InitDatabase(s, path, initOk, tableOk, fileRecords).state
    case Close(closeOk) => CloseDatabase(s, closeOk).state
    case Add(data, execOk, sqlError) => AddUser(s, data, execOk, sqlError).state
    case Get(userId, execOk, sqlError) => GetUser(s, UserData("", "", false), userId, execOk, sqlError).state
  }

  function Run(s: State, ops: seq<Op>): State
    decreases |ops|
  {
    if |ops| == 0 then s else Run(Apply(s, ops[0]), ops[1..])
  }

  /**
    The open flag guards everything: without an `Init` call, a closed database
    stays closed and unchanged whatever is added, read or closed.
   */
  lemma {:induction false} ClosedStaysUnchanged(s: State, ops: seq<Op>)
    requires !s.isOpen
    requires forall k :: 0 <= k < |ops| ==> !ops[k].Init?
    ensures Run(s, ops) == s
    decreases |ops|
  {
    if |ops| > 0 {
      assert Apply(s, ops[0]) == s;
      ClosedStaysUnchanged(s, ops[1..]);
    }
  }

  /** While the database stays open, its path is the one recorded by the opening `Init`. */
  lemma {:induction false} OpenKeepsPath(s: State, ops: seq<Op>)
    requires s.isOpen
    requires forall k :: 0 <= k < |ops| ==> !ops[k].Close?
    ensures Run(s, ops).isOpen && Run(s, ops).path == s.path
    decreases |ops|
  {
    if |ops| > 0 {
      var s' := Apply(s, ops[0]);
      assert s'.isOpen && s'.path == s.path;
      OpenKeepsPath(s', ops[1..]);
    }
  }
}

=== FILE: users_table.dfy ===
/**
  The users table of the older revision (src/users/users_table.cpp): a user's
  groups are stored as one comma-joined column, and the lookups decode the
  first matching row, splitting that column back into a list.

  The SQL layer under the table is not part of this model: a query result is
  an input, None when the query itself fails.
 */
module UsersTable {
  import opened Common
  import Strings

  /** One row of the `users` table as the query layer returns it. */
  datatype Row = Row(uuid: string, userName: string, pwHash: string, isAdmin: bool, groups: string)

  /** UsersTable::UserData */
  datatype UserData = UserData(userId: string, userName: string, pwHash: string, isAdmin: bool,
                               groups: seq<string>)

  /** A default-constructed UserData. */
  const EmptyUser: UserData := UserData("", "", "", false, [])

  /**
    The boolean result of a lookup with its `result` out-parameter (left as the
    caller passed it on failure) and the message added to the error container
    ("" when the failure comes from the query layer, whose message is not modelled).
   */
  datatype Fetch = Fetch(ok: bool, result: UserData, error: string)

  /** The group-list loop of `addUser`: a comma before every element but the first. */
  method JoinGroups(groups: seq<string>) returns (list: string)
    ensures list == Strings.Join(groups, ',')
    ensures |groups| == 0 ==> list == ""
    // the stored column splits back into the groups
    ensures Strings.Free(groups, ',') && groups != [""] ==> Strings.Split(list, ',') == groups
  {
    list := "";
    var i := 0;
    while i < |groups|
      invariant 0 <= i <= |groups|
      invariant list == Strings.Join(groups[..i], ',')
    {
      if i != 0 {
        list := list + ",";
      }
      list := list + groups[i];
      if i != 0 {
        Strings.JoinSnoc(groups[..i], groups[i], ',');
      }
      assert groups[..i + 1] == groups[..i] + [groups[i]];
      i := i + 1;
    }
    assert groups[..i] == groups;
    if Strings.Free(groups, ',') && groups != [""] {
      Strings.SplitJoin(groups, ',');
    }
  }

  /** The values `addUser` inserts, in column order. */
  function InsertValues(data: UserData): (values: seq<string>)
    ensures |values| == 4
    ensures values[0] == data.userName && values[1] == data.pwHash
    ensures values[2] == "1" <==> data.isAdmin
    ensures values[3] == Strings.Join(data.groups, ',')
  {
    [data.userName, data.pwHash, BoolToString(data.isAdmin), Strings.Join(data.groups, ',')]
  }

  /** The fields copied from a row; the groups column is split afresh, discarding earlier contents. */
  function Decode(row: Row): (data: UserData)
    ensures data.userId == row.uuid && data.userName == row.userName
    ensures data.pwHash == row.pwHash && data.isAdmin == row.isAdmin
    // the groups are the pieces of the column: comma-free, re-joining to it
    ensures Strings.Join(data.groups, ',') == row.groups
    ensures Strings.Free(data.groups, ',') && data.groups != [""]
  {
    Strings.JoinSplit(row.groups, ',');
    UserData(row.uuid, row.userName, row.pwHash, row.isAdmin, Strings.Split(row.groups, ','))
  }

  /** UsersTable::getUserByName */
  function GetUserByName(prior: UserData, query: Option<seq<Row>>, userName: string): (f: Fetch)
    ensures f.ok <==> query.Some? && |query.value| > 0
    ensures f.ok ==> f.result == Decode(query.value[0])
    ensures !f.ok ==> f.result == prior
    ensures query.Some? && |query.value| == 0 ==> f.error == "User with name '" + userName + "' not found;"
  {
    match query
    case None => Fetch(false, prior, "")
    case Some(rows) =>
      if |rows| == 0 then Fetch(false, prior, "User with name '" + userName + "' not found;")
      else Fetch(true, Decode(rows[0]), "")
  }

  /** UsersTable::getUser(TableItem, uuid): the rows, failing when none match. */
  function GetUserRows(query: Option<seq<Row>>): (f: Option<seq<Row>>)
    ensures f.Some? <==> query.Some? && |query.value| > 0
    ensures f.Some? ==> f == query
  {
    match query
    case None => None
    case Some(rows) => if |rows| == 0 then None else Some(rows)
  }

  /** The message `getUser(TableItem, uuid)` adds when no row matches. */
  function NotFoundById(uuid: string): string {
    "User with ID '" + uuid + "' not found;"
  }

  /** UsersTable::getUser(UserData, TableItem, uuid): fails whenever the row lookup fails. */
  function GetUser(prior: UserData, query: Option<seq<Row>>, uuid: string): (f: Fetch)
    ensures f.ok <==> GetUserRows(query).Some?
    ensures f.ok ==> f.result == Decode(query.value[0])
    ensures !f.ok ==> f.result == prior
    ensures query.Some? && |query.value| == 0 ==> f.error == NotFoundById(uuid)
  {
    match GetUserRows(query)
    case None =>
      Fetch(false, prior, if query.Some? then NotFoundById(uuid) else "")
    case Some(rows) => Fetch(true, Decode(rows[0]), "")
  }

  /**
    Round trip through the table: a user whose groups hold no comma (and are
    not the single empty group) is read back as inserted, except for its id,
    which is the `uuid` the query layer assigns to the row (`addUser` inserts
    no id). The boolean column holds the value `std::to_string` wrote.
   */
  lemma InsertThenGetByName(data: UserData, uuid: string, prior: UserData)
    requires Strings.Free(data.groups, ',') && data.groups != [""]
    ensures var v := InsertValues(data);
            var row := Row(uuid, v[0], v[1], v[2] == "1", v[3]);
            GetUserByName(prior, Some([row]), data.userName) == Fetch(true, data.(userId := uuid), "")
  {
    Strings.SplitJoin(data.groups, ',');
  }

  /** The same round trip for the lookup by the assigned uuid. */
  lemma InsertThenGetById(data: UserData, uuid: string, prior: UserData)
    requires Strings.Free(data.groups, ',') && data.groups != [""]
    ensures var v := InsertValues(data);
            var row := Row(uuid, v[0], v[1], v[2] == "1", v[3]);
            GetUser(prior, Some([row]), uuid) == Fetch(true, data.(userId := uuid), "")
  {
    Strings.SplitJoin(data.groups, ',');
  }
}

=== FILE: validate_access.dfy ===
/**
  The access-validation request: check a user's JWT and, when a component is
  named, whether any of the user's roles is permitted by the policy to call
  (component, endpoint, HTTP type). On success the token payload, minus its
  secret and internal fields, is the output.
 */
module Access {
  import opened Common
  import Strings
  import Fields
  import opened Policy

  /** `validateToken` of the JWT library: the payload claims, or the error safe to show the client. */
  datatype TokenCheck = Valid(payload: Claims) | Invalid(publicError: string)

  /** The fields removed from the payload before it is returned. */
  const Hidden: set<string> := {"pw_hash", "exp", "iat", "nbf", "owner_uuid", "project_uuid", "visibility"}

  const AccessDenied: string := "Access denied by policy"

  /**
    The roles of the token's user: the comma-split of the `user_roles` claim.
    None of the token issuers in this model writes that claim (the v1 issuer
    signs the user's `roles`, the older one the row's `groups`), so for their
    tokens it reads as "" and yields no roles.
   */
  function RolesOf(payload: Claims): seq<string> {
    Strings.Split(GetString(payload, "user_roles"), ',')
  }

  /** Some role of the payload is permitted for (component, endpoint, HTTP type). */
  ghost predicate Permitted(check: PolicyCheck, component: string, endpoint: string,
                            httpType: int, payload: Claims)
  {
    exists i :: 0 <= i < |RolesOf(payload)| && check(component, endpoint, httpType, RolesOf(payload)[i])
  }

  /**
    ValidateAccess::runTask. `component` and `endpoint` read as "" when the
    request leaves them out; `httpType` is None when the request has no
    `http_type` field.
   */
  function ValidateAccess(token: string, component: string, endpoint: string, httpType: Option<int>,
                          validate: string -> TokenCheck, check: PolicyCheck): (r: Reply)
    // a rejected token ends the request before anything else is looked at
    ensures validate(token).Invalid? ==> r == Fail(Unauthorized, validate(token).publicError)
    // a named component without an HTTP type is a server-side error
    ensures validate(token).Valid? && component != "" && httpType.None?
            ==> r == Fail(InternalServerError, "")
    // access is granted exactly for a valid token and either no component or a permitted role
    ensures r.Ok? <==> validate(token).Valid? &&
                       (component == "" ||
                        (httpType.Some? &&
                         Permitted(check, component, endpoint, HttpType(httpType.value), validate(token).payload)))
    // every policy denial looks the same
    ensures validate(token).Valid? && component != "" && httpType.Some? &&
            !Permitted(check, component, endpoint, HttpType(httpType.value), validate(token).payload)
            ==> r == Fail(Unauthorized, AccessDenied)
    // the output is the payload without the hidden fields, everything else unchanged
    ensures r.Ok? ==> forall k :: k in r.output <==> k in validate(token).payload && k !in Hidden
    ensures r.Ok? ==> forall k :: k in r.output ==> r.output[k] == validate(token).payload[k]
    ensures r != Fault
  {
    match validate(token)
    case Invalid(publicError) => Fail(Unauthorized, publicError)
    case Valid(payload) =>
      if component != "" && httpType.None? then Fail(InternalServerError, "")
      else if component != "" &&
              !AnyRolePermits(check, component, endpoint, HttpType(httpType.value), RolesOf(payload))
      then Fail(Unauthorized, AccessDenied)
      else Ok(payload - Hidden)
  }

  /** With a rejected token the policy is never consulted: any policy gives the same reply. */
  lemma PolicyNotConsultedForInvalidToken(token: string, component: string, endpoint: string,
                                          httpType: Option<int>, validate: string -> TokenCheck,
                                          check1: PolicyCheck, check2: PolicyCheck)
    requires validate(token).Invalid?
    ensures ValidateAccess(token, component, endpoint, httpType, validate, check1)
         == ValidateAccess(token, component, endpoint, httpType, validate, check2)
    ensures ValidateAccess(token, component, endpoint, httpType, validate, check1).Fail?
  {
  }

  /**
    Without a component only the token is checked: the reply succeeds for
    every valid token, whatever the policy, endpoint or HTTP type.
   */
  lemma TokenOnlyCheck(token: string, endpoint1: string, endpoint2: string,
                       httpType1: Option<int>, httpType2: Option<int>,
                       validate: string -> TokenCheck, check1: PolicyCheck, check2: PolicyCheck)
    requires validate(token).Valid?
    ensures ValidateAccess(token, "", endpoint1, httpType1, validate, check1).Ok?
    ensures ValidateAccess(token, "", endpoint1, httpType1, validate, check1)
         == ValidateAccess(token, "", endpoint2, httpType2, validate, check2)
  {
  }

  /**
    Reordering or repeating the roles in the `user_roles` claim does not
    change whether access is granted.
   */
  lemma RoleOrderIrrelevant(token1: string, token2: string, component: string, endpoint: string,
                            httpType: Option<int>, validate: string -> TokenCheck, check: PolicyCheck)
    requires validate(token1).Valid? && validate(token2).Valid?
    requires forall x :: x in RolesOf(validate(token1).payload) <==> x in RolesOf(validate(token2).payload)
    ensures ValidateAccess(token1, component, endpoint, httpType, validate, check).Ok?
        <==> ValidateAccess(token2, component, endpoint, httpType, validate, check).Ok?
  {
    if component != "" && httpType.Some? {
      DecisionIgnoresOrder(check, component, endpoint, HttpType(httpType.value),
                           RolesOf(validate(token1).payload), RolesOf(validate(token2).payload));
    }
  }

  /**
    OR semantics across roles: a user holding roles A and B is admitted when
    only B is permitted.
   */
  lemma OneOfTwoRolesSuffices(token: string, component: string, endpoint: string, httpType: int,
                              validate: string -> TokenCheck, check: PolicyCheck, a: string, b: string)
    requires component != "" && ',' !in a && ',' !in b
    requires validate(token).Valid? && GetString(validate(token).payload, "user_roles") == a + "," + b
    requires !check(component, endpoint, HttpType(httpType), a)
    requires check(component, endpoint, HttpType(httpType), b)
    ensures ValidateAccess(token, component, endpoint, Some(httpType), validate, check).Ok?
  {
    assert Strings.Join([a, b], ',') == a + "," + b;
    Strings.SplitJoin([a, b], ',');
    assert RolesOf(validate(token).payload)[1] == b;
  }

  /**
    A component that passes the request's field rules is never empty, so a
    request that names one is always checked against the policy.
   */
  lemma NamedComponentIsPolicyChecked(token: string, component: string, endpoint: string, endpointGiven: bool,
                                      httpType: int, httpTypeGiven: bool,
                                      validate: string -> TokenCheck, check: PolicyCheck)
    requires Fields.AccessRequestAccepted(token, component, true, endpoint, endpointGiven, httpType, httpTypeGiven)
    ensures var r := ValidateAccess(token, component, endpoint, if httpTypeGiven then Some(httpType) else None,
                                    validate, check);
            r.Ok? ==> httpTypeGiven && Permitted(check, component, endpoint, httpType, validate(token).payload)
  {
    assert component != "";
  }
}

=== FILE: validate_token.dfy ===
/**
  The older token-validation request: verify an HS256 token, parse its
  payload and check the comma-separated `groups` claim against the policy.
  All four inputs (token, component, endpoint, http_type) are required, so
  the policy is always consulted once the token and payload are good.
 */
module TokenValidation {
  import opened Common
  import Strings
  import opened Policy

  /**
    The handler's outcome. `Allowed` and `Denied` are the two values of its
    boolean result when it sets neither status nor message (a policy denial
    is reported only through `false`); `Rejected` carries the status and
    message it sets; `Undefined` is a payload without a `groups` field, whose
    lookup dereferences a null pointer.
   */
  datatype Verdict = Allowed | Denied | Rejected(status: Status, message: string) | Undefined

  /**
    ValidateToken::runTask. `verify` is `validate_HS256_Token` of the JWT
    library (the payload text of a good token) and `parse` is the JSON parser
    (None also for a payload that is not an object).
   */
  function ValidateToken(token: string, component: string, endpoint: string, httpTypeValue: int,
                         verify: string -> Option<string>, parse: string -> Option<Claims>,
                         check: PolicyCheck): (r: Verdict)
    ensures verify(token).None? ==> r == Rejected(Unauthorized, "token invalid")
    ensures verify(token).Some? && parse(verify(token).value).None?
            ==> r == Rejected(InternalServerError, "token-payload broken")
    // the result is true exactly when some group of the payload is permitted
    ensures r == Allowed <==>
              && verify(token).Some?
              && parse(verify(token).value).Some?
              && "groups" in parse(verify(token).value).value
              && var groups := Strings.Split(GetString(parse(verify(token).value).value, "groups"), ',');
                 exists i :: 0 <= i < |groups| && check(component, endpoint, HttpType(httpTypeValue), groups[i])
    // a policy denial and a missing payload field are the only outcomes of a good, parsable token
    ensures verify(token).Some? && parse(verify(token).value).Some? ==> r == Allowed || r == Denied || r == Undefined
    ensures r == Undefined <==> verify(token).Some? && parse(verify(token).value).Some? &&
                                "groups" !in parse(verify(token).value).value
  {
    match verify(token)
    case None => Rejected(Unauthorized, "token invalid")
    case Some(payload) =>
      match parse(payload)
      case None => Rejected(InternalServerError, "token-payload broken")
      case Some(content) =>
        if "groups" !in content then Undefined
        else
          var groups := Strings.Split(GetString(content, "groups"), ',');
          if AnyRolePermits(check, component, endpoint, HttpType(httpTypeValue), groups)
          then Allowed else Denied
  }

  /**
    Once the token and its payload are good and the payload names at least one
    group, the policy alone decides: a policy permitting every role allows, one
    permitting none denies.
   */
  lemma PolicyAlwaysDecides(token: string, component: string, endpoint: string, httpTypeValue: int,
                            verify: string -> Option<string>, parse: string -> Option<Claims>,
                            check1: PolicyCheck, check2: PolicyCheck)
    requires verify(token).Some? && parse(verify(token).value).Some?
    requires "groups" in parse(verify(token).value).value
    requires GetString(parse(verify(token).value).value, "groups") != ""
    requires forall role :: check1(component, endpoint, HttpType(httpTypeValue), role)
    requires forall role :: !check2(component, endpoint, HttpType(httpTypeValue), role)
    ensures ValidateToken(token, component, endpoint, httpTypeValue, verify, parse, check1) == Allowed
    ensures ValidateToken(token, component, endpoint, httpTypeValue, verify, parse, check2) == Denied
  {
    var groups := Strings.Split(GetString(parse(verify(token).value).value, "groups"), ',');
    assert check1(component, endpoint, HttpType(httpTypeValue), groups[0]);
  }
}
